=== FILE: README.md ===
# aoc-tool in Dafny

A model of the core of `aoctool`, a command-line tool that sets up Advent of
Code puzzles in several programming languages. It downloads a puzzle's input and
description, renders a language-specific source scaffold, compiles it, and
decides whether to run or submit a solution. The model covers:

- **Puzzle identity and argument checks** (`aoctool/utils.py`):
  - the `YYYY_DD` puzzle name and the `YYYY-12-DD` date string;
  - the current-part rule;
  - the session-key check and the choice of token;
  - the day/year range check;
  - `command2str`. This is `shlex.quote` with CPython's rule, proved against a POSIX shell word reader: reading a quoted command gives back the argument vector.
- **The language drivers** (`aoctool/drivers/`):
  - the closed set Haskell, Python and Rust, with their names, extensions and templates;
  - the `AoCBuilder` directory layout;
  - Haskell's `aoc…` executable name and its cabal-manifest clean-up;
  - Rust's `Cargo.toml` record and `release/` executable;
  - Python's identity compile;
  - the `DRIVERS` table.
- **The commands over a filesystem**:
  - `scaffold` creates the language directory when it is missing and refuses to overwrite a scaffold unless `--force` is given;
  - `compile` fails on a missing source or a missing executable;
  - `download` creates the puzzle directory if needed, then copies two files;
  - `run` refuses `--part` together with `--submit`.

The filesystem is a set of directories and a map from file paths to their text.
The directory the tool runs in is the empty path. `FileSystem.FsState` states what
each primitive does (`mkdir(parents=True)`, `open(…, 'w')`, `shutil.copy`,
`unlink`) and keeps the invariant `Valid`: no path is both a file and a directory,
and everything above an entry is a directory. The class `FileSystem.FileSystem`
holds the same state. Its methods update the state in place, and each command
is a method proved equal to a specification function. The lemmas about those
functions carry the properties.

The source files come from different revisions, and their `compile_source`
signatures differ:

- `_base.py` declares `compile_source(src_path, build_dir) -> Path`.
  `Builder.DoCompile` follows it: Python returns its source unchanged, and for
  Haskell and Rust the outcome of that abstract call is a parameter
  (`Drivers.CompileEffect`).
- `haskell.py` and `rust.py` define a three-argument `compile_source` that
  returns nothing, plus `get_exec_path`. These are modelled as argument vectors
  (`Drivers.Invocation`) and path functions.
- The lemmas in `Builder` that feed a builder's scaffold path and build
  directory to those drivers pair the two revisions; the pairing is an
  assumption of the model (see "Left out").

## Model

| member | source | states |
|---|---|---|
| Text.Pad2TwoDigits | aoctool/utils.py:63 | `{day:02d}` of a day in 0..99 is exactly two decimal digits that denote the day |
| Text.NatToStringRoundTrip | aoctool/utils.py:63 | the decimal digits of a year read back as that year |
| Text.IntToStringInjective | aoctool/utils.py:63 | different integers print differently |
| Text.Capitalize | aoctool/drivers/_base.py:29 | `str.capitalize` on ASCII text: same length, first character upper-case, the rest lower-case |
| Text.Strip | aoctool/utils.py:41 | `str.strip`: the result is a slice of the input that drops only whitespace at either end, and neither of its ends is whitespace; whitespace is what `str.isspace` accepts (ASCII 9-13 and 28-32, U+0085, U+00A0, U+1680, U+2000-U+200A, U+2028, U+2029, U+202F, U+205F, U+3000) |
| Text.StripUnchanged | aoctool/utils.py:41 | a string that neither starts nor ends with whitespace is its own stripped form |
| Text.RemoveAllSpec | aoctool/drivers/haskell.py:14 | `replace('_', '')` leaves no underscore, keeps the count of every other character, and shortens the text by the number of underscores |
| Text.RemoveAllAppend | aoctool/drivers/haskell.py:14 | removing a character from a concatenation is the concatenation of the two results, so the kept characters stay in order |
| Text.RemoveAllChar | aoctool/drivers/haskell.py:14 | a single character is dropped exactly when it is the removed one, and is kept otherwise |
| Text.LinesConcat | aoctool/drivers/haskell.py:32-35 | iterating over a text file yields well-formed lines that join back to the text |
| Text.ConcatLines | aoctool/drivers/haskell.py:32-35 | joining well-formed lines and iterating again yields the same lines |
| Paths.Stem | aoctool/drivers/haskell.py:14 | `Path.stem` is a prefix of the file name; when it is shorter, the name continues with its last dot, which is neither its first nor its last character; when it is the whole name, no dot after the first character and before the last is the last dot |
| Paths.StemOfNameWithExtension | aoctool/drivers/_base.py:66 | the stem of `base.ext` is `base` when `ext` has no dot |
| Paths.RelativeTo | aoctool/drivers/rust.py:22 | `relative_to` succeeds exactly when the base is a prefix; the base followed by the result is the path; otherwise `ValueError` |
| Utils.Name | aoctool/utils.py:61-63 | the name is the decimal year followed by `_`, and that underscore is the only one in the name, for every year and day |
| Utils.DateString | aoctool/utils.py:65-67 | the date string is the decimal year followed by `-12-`, then only digits and minus signs |
| Utils.NameFormat | aoctool/utils.py:61-63 | for a valid day the name is the decimal year, `_`, then exactly two digits denoting the day |
| Utils.NameInjective | aoctool/utils.py:61-63 | on valid days, two puzzles have the same name exactly when they have the same year and day |
| Utils.DateStringFormat | aoctool/utils.py:65-67 | the date string is the year, `-12-`, then two digits denoting the day, and it is injective on valid days |
| Utils.CurrentPart | aoctool/utils.py:69-74 | the part is 1 or 2, and it is 2 exactly when part 1 is answered |
| Utils.DefaultSessionKeyPath | aoctool/utils.py:18 | the session dotfile is `.adventofcode.session` directly in the home directory |
| Utils.ValidSessionKey | aoctool/utils.py:42-43 | a key is valid exactly when it has 128 characters, each a decimal digit or a letter a-f in either case |
| Utils.ValidSessionKeyStripped | aoctool/utils.py:41-43 | a valid key is its own stripped form |
| Utils.DefaultSessionCookie | aoctool/utils.py:34-44 | `AOC_SESSION` when set, else the stripped dotfile; a missing dotfile raises `FileNotFoundError`; accepted exactly when it is 128 hexadecimal digits |
| Utils.SessionToken | aoctool/utils.py:78-81 | an explicit session is used unchecked; otherwise the default cookie, which is then a valid key |
| Utils.PuzzleFromArgs | aoctool/utils.py:76-83 | the puzzle has the given year and day and the chosen token; a token error propagates |
| Utils.ValidateArgs | aoctool/utils.py:111-116 | passes exactly when the present day is in 1-25 and the present year is in 2015..now; the day is checked first, with its message |
| Utils.Quote | aoctool/utils.py:55-56 | a non-empty word of safe characters is left as it is; every quoted word is non-empty |
| Utils.QuoteAll | aoctool/utils.py:55-56 | every argument is quoted, in order |
| Utils.Command2Str | aoctool/utils.py:55-56 | a POSIX shell reads the joined command back as exactly the argument vector, whatever the arguments contain |
| Utils.QuoteSafeExamples | aoctool/tests/test_utils.py:21-22 | `prog`, `arg1` and `--arg2` are left unquoted |
| Utils.QuoteSpaceExample | aoctool/tests/test_utils.py:23 | `two parts` is quoted as `'two parts'` |
| Utils.Command2StrSafeExample | aoctool/tests/test_utils.py:21-22 | `['prog', 'arg1', '--arg2']` joins to `prog arg1 --arg2` |
| Utils.Command2StrSpaceExample | aoctool/tests/test_utils.py:23-26 | `['prog', 'two parts']` joins to `prog 'two parts'` |
| FileSystem.MakeDirs | aoctool/utils.py:46-48 | `mkdir(parents=True)` succeeds exactly when the path is missing and no file is in the way; it adds the path and its missing ancestors and keeps `Valid`; an existing path raises `FileExistsError` and changes nothing |
| FileSystem.WriteText | aoctool/utils.py:50-53 | writing succeeds exactly when the path is not a directory and its parent is one; only that file changes |
| FileSystem.CopyFile | aoctool/commands/download.py:28 | `shutil.copy` writes into `dst`, or `dst/name` when `dst` is a directory; copying an existing file or directory onto itself raises `SameFileError` before any other error; a source that is not a file raises; only the target changes |
| FileSystem.Unlink | aoctool/drivers/haskell.py:30 | removes exactly an existing file; anything else raises and changes nothing |
| FileSystem.FileSystem.MakeDirectory | aoctool/utils.py:46-48 | in place, the result and new state are those of `MakeDirs` |
| FileSystem.FileSystem.Write | aoctool/utils.py:50-53 | in place, the result and new state are those of `WriteText` |
| FileSystem.FileSystem.Copy | aoctool/commands/download.py:28 | in place, the result and new state are those of `CopyFile` |
| FileSystem.FileSystem.Remove | aoctool/drivers/haskell.py:30 | in place, the result and new state are those of `Unlink` |
| FileSystem.FileSystem.Exists | aoctool/commands/scaffold.py:19 | `Path.exists` is true of a directory or a file |
| Drivers.DriversDistinct | aoctool/drivers/__init__.py:10-14 | the three drivers have pairwise different language names and extensions; extensions are non-empty and have no dot |
| Drivers.TemplatePath | aoctool/drivers/_base.py:20-23 | the template lies directly in the template directory and is named `<language>.jinja2` |
| Drivers.TemplatePathsDistinct | aoctool/drivers/_base.py:20-23 | different drivers use different templates |
| Drivers.TemplateStem | aoctool/drivers/_base.py:20-23 | each template is named after its language |
| Drivers.ScaffoldVars | aoctool/drivers/_base.py:25-29 | the template sees the language name with its first letter upper-cased and the rest as in the language constant (`str.capitalize` lower-cases the rest; the two agree because every language constant is lower-case, see `Drivers.LanguageLabels`), the puzzle, and the resolved input path |
| Drivers.LanguageLabels | aoctool/drivers/_base.py:29 | the label of each driver is `Haskell`, `Python` or `Rust` |
| Drivers.RenderScaffold | aoctool/drivers/_base.py:25-29 | the text is what the renderer makes of the driver's own template with variables holding the capitalised language name, the puzzle and the resolved input path |
| PythonDriver.Constants | aoctool/drivers/python.py:8-9 | the language is `python` with extension `py` |
| PythonDriver.CompileSource | aoctool/drivers/python.py:11-13 | the executable is the source itself, whatever the build directory |
| HaskellDriver.Constants | aoctool/drivers/haskell.py:10-11 | the language is `haskell` with extension `hs` |
| HaskellDriver.ExecName | aoctool/drivers/haskell.py:13-14 | `aoc` followed by the stem: no underscore anywhere, length 3 + stem − underscores, the other characters kept |
| HaskellDriver.ExecNamePlain | aoctool/drivers/haskell.py:13-14 | a stem without underscores follows `aoc` whole and in order |
| HaskellDriver.ExecNameSplit | aoctool/drivers/haskell.py:13-14 | up to its first underscore the stem is copied in order, the underscore is dropped, and the rest follows with its underscores removed |
| HaskellDriver.ExecPath | aoctool/drivers/haskell.py:38-39 | the executable lies directly in the build directory under the executable name |
| HaskellDriver.ManifestPath | aoctool/drivers/haskell.py:20-21 | the manifest lies in the scaffold directory, is named `<executable name>.cabal`, and its stem is the executable name |
| HaskellDriver.ChangelogPath | aoctool/drivers/haskell.py:28-29 | the change log is `CHANGELOG.md` directly in the scaffold directory |
| HaskellDriver.ManifestIsNotChangelog | aoctool/drivers/haskell.py:21-29 | the manifest and `CHANGELOG.md` are different files |
| HaskellDriver.CabalInitCommand | aoctool/drivers/haskell.py:22 | `cabal init --non-interactive --exe --minimal` followed by four flag/value pairs, thirteen arguments in all; the values are stated by `CabalPackageArguments`, `CabalApplicationArguments` and `CabalInitArguments` |
| HaskellDriver.CabalPackageArguments | aoctool/drivers/haskell.py:20-22 | `--package-name` is the executable name and `--package-dir` the resolved scaffold directory |
| HaskellDriver.CabalApplicationArguments | aoctool/drivers/haskell.py:20-22 | `--application-dir` is `.` and `--main-is` the source file name |
| HaskellDriver.CabalInitArguments | aoctool/drivers/haskell.py:20-22 | `cabal init` gets the manifest's stem as `--package-name`, the resolved scaffold directory, `--application-dir .` and `--main-is` the source file name |
| HaskellDriver.FilterLines | aoctool/drivers/haskell.py:33 | keeps exactly the lines that do not start with `extra-doc-files` |
| HaskellDriver.FilterLinesAppend | aoctool/drivers/haskell.py:33 | filtering a concatenation filters each part and concatenates, so kept lines keep their order and multiplicity |
| HaskellDriver.FilterLinesSingle | aoctool/drivers/haskell.py:33 | one line is kept, once, exactly when it does not start with `extra-doc-files` |
| HaskellDriver.FilterWellFormed | aoctool/drivers/haskell.py:33-35 | the kept lines are still the lines of a text |
| HaskellDriver.FilterLinesIdempotent | aoctool/drivers/haskell.py:33 | filtering twice equals filtering once |
| HaskellDriver.FilterManifest | aoctool/drivers/haskell.py:32-36 | read again as lines, the rewritten manifest gives exactly the kept lines of the old one, in order (the lines themselves by `FilterLinesAppend` and `FilterLinesSingle`) |
| HaskellDriver.FilterManifestIdempotent | aoctool/drivers/haskell.py:32-36 | rewriting the manifest twice equals rewriting it once |
| HaskellDriver.FilterManifestUnchanged | aoctool/drivers/haskell.py:32-36 | a manifest without `extra-doc-files` lines is left as it was |
| HaskellDriver.FinishScaffoldSpec | aoctool/drivers/haskell.py:26-36 | a missing manifest fails the assertion and changes nothing; success happens exactly when the manifest and the change log are files, and then the change log is removed and the manifest rewritten; with the manifest present, a missing change log raises from `unlink` and changes nothing, and a manifest that is a directory raises `IsADirectoryError` after the change log is already gone; `Valid` is kept |
| HaskellDriver.CleanUpManifest | aoctool/drivers/haskell.py:26-36 | the same steps and the same outcomes, success and each failure, for any manifest path and change-log path that differ |
| HaskellDriver.FinishScaffold | aoctool/drivers/haskell.py:26-36 | in place, the result and new state are those of `FinishScaffoldSpec` |
| HaskellDriver.CompileSource | aoctool/drivers/haskell.py:41-45 | `cabal install` with six arguments, run in the scaffold directory, with `--builddir build` and `--installdir build` |
| HaskellDriver.InstallDirHoldsExecutable | aoctool/drivers/haskell.py:38-45 | when the build directory is the scaffold directory's `build`, the install directory taken relative to where `cabal install` runs is the parent of `get_exec_path` |
| RustDriver.Constants | aoctool/drivers/rust.py:12-13 | the language is `rust` with extension `rs` |
| RustDriver.ManifestPath | aoctool/drivers/rust.py:18 | `Cargo.toml` directly in the scaffold directory |
| RustDriver.ExecPath | aoctool/drivers/rust.py:29-30 | the executable is named after the stem, inside `release` inside the build directory |
| RustDriver.Manifest | aoctool/drivers/rust.py:20-24 | package `aoc_<stem>` 0.1.0; one binary named after the stem whose path is the source relative to the scaffold directory; no dependencies; `ValueError` exactly when the source is outside the scaffold directory |
| RustDriver.ManifestNamesExecutable | aoctool/drivers/rust.py:21-30 | the declared binary is the file `get_exec_path` names, and the package is `aoc_` plus that name |
| RustDriver.ManifestPathOfScaffold | aoctool/drivers/rust.py:22 | a source directly in the scaffold directory gets its bare file name as the binary path |
| RustDriver.MakeScaffoldSpec | aoctool/drivers/rust.py:15-27 | a bad relative path raises and changes nothing; otherwise the dumped manifest is written to `Cargo.toml` and no other file changes |
| RustDriver.MakeScaffold | aoctool/drivers/rust.py:15-27 | in place, the result and new state are those of `MakeScaffoldSpec` |
| RustDriver.CompileSource | aoctool/drivers/rust.py:32-37 | `cargo build --release` with seven arguments, run in the current directory, with `--manifest-path` the scaffold's `Cargo.toml` and `--target-dir` the build directory |
| RustDriver.CargoBuildArguments | aoctool/drivers/rust.py:29-37 | the target directory `cargo build` gets is the build directory, two levels above `get_exec_path`, and its manifest is the `Cargo.toml` that `make_scaffold` writes |
| Builder.AoCBuilder.PuzzleDir | aoctool/drivers/_base.py:43-46 | the puzzle directory lies directly in the output root and is named after the puzzle |
| Builder.AoCBuilder.InputDataPath | aoctool/drivers/_base.py:48-51 | the input data is `input.txt` directly in the puzzle directory |
| Builder.AoCBuilder.LanguageDir | aoctool/drivers/_base.py:53-56 | the language directory lies directly in the puzzle directory and is named after the language |
| Builder.AoCBuilder.BuildDir | aoctool/drivers/_base.py:58-61 | the build directory is `build` directly in the language directory |
| Builder.AoCBuilder.ScaffoldPath | aoctool/drivers/_base.py:63-66 | the scaffold lies directly in the language directory and is named `<puzzle name>.<extension>` |
| Builder.Layout | aoctool/drivers/_base.py:43-66 | the puzzle directory is under the output root; input data and language directory are under it; build directory and scaffold are under the language directory; the scaffold's stem is the puzzle name; these paths are distinct |
| Builder.LanguagesSeparate | aoctool/drivers/_base.py:53-66 | two languages share the puzzle directory and input data but no language directory, build directory or scaffold |
| Builder.PuzzlesSeparate | aoctool/drivers/_base.py:43-46 | on valid days, puzzle directories coincide exactly when year and day coincide |
| Builder.HaskellExecName | aoctool/drivers/haskell.py:13-14 | for a source at the builder's scaffold path, the Haskell executable name is `aoc` + year + two-digit day |
| Builder.RustExecName | aoctool/drivers/rust.py:20-30 | for a source at the builder's scaffold path and the builder's build directory, the Rust executable is `build/release/<puzzle name>`, and the manifest of that scaffold declares that binary |
| Builder.HaskellInstallsIntoBuildDir | aoctool/drivers/haskell.py:41-45 | when the scaffold directory given to `cabal install` is the builder's language directory, it runs there and installs into the builder's build directory, where the executable of the builder's scaffold is looked for |
| Builder.ScaffoldText | aoctool/drivers/_base.py:71 | the scaffold text is the renderer's output for the driver's own template, with the builder's puzzle and its resolved input data path |
| Builder.DoScaffold | aoctool/drivers/_base.py:68-73 | the rendered scaffold is written to the scaffold path exactly as `write_file` does |
| Builder.DriverCompile | aoctool/drivers/_base.py:31-33 | Python's compile returns the source and changes nothing; other drivers' compile outcome is the environment's |
| Builder.CompileSpec | aoctool/drivers/_base.py:75-83 | a missing scaffold raises `FileNotFoundError` before anything changes; otherwise it succeeds exactly when the returned executable exists, else `RuntimeError` |
| Builder.PythonCompileSucceeds | aoctool/drivers/_base.py:77-82 | for Python an existing scaffold always compiles, and nothing changes |
| Builder.DoCompile | aoctool/drivers/_base.py:75-83 | in place, the result and new state are those of `CompileSpec` |
| Registry.DriversTable | aoctool/drivers/__init__.py:10-14 | the keys are exactly `VALID_LANGUAGES`, each driver is stored under its own language name, and every driver is present |
| Registry.LookupDriver | aoctool/drivers/__init__.py:17 | succeeds exactly for a valid language, with the driver of that name; otherwise `KeyError` |
| Registry.AocBuilderFromArgs | aoctool/drivers/__init__.py:16-19 | an unknown language raises `KeyError` before the puzzle is built; otherwise the builder has that driver, the puzzle from the arguments, and the output root |
| ScaffoldCommand.ScaffoldSpec | aoctool/commands/scaffold.py:19-23 | the steps of `run` keep `Valid` |
| ScaffoldCommand.RefusalMessage | aoctool/commands/scaffold.py:22 | the message is `Refusing to overwrite scaffold file `, the scaffold path as `str` prints it, and ` (to do so, use --force)` |
| ScaffoldCommand.ScaffoldRefuses | aoctool/commands/scaffold.py:21-22 | an existing scaffold without `--force` raises `ValueError` and nothing on disk changes |
| ScaffoldCommand.EnsureDir | aoctool/commands/scaffold.py:19-20 | creating the missing language directory fails exactly when a file is above it and adds only the missing directories; an existing directory has no file above it |
| ScaffoldCommand.ScaffoldWrites | aoctool/commands/scaffold.py:19-23 | with `--force` or no scaffold, it succeeds exactly when nothing is in the way; then the language directory exists and the scaffold holds the rendered text; no other file changes; directories are added only when the language directory was missing; failure changes nothing |
| ScaffoldCommand.RunSpec | aoctool/commands/scaffold.py:15-23 | an unknown language raises `KeyError` and changes nothing; any other error from building the puzzle (the session token) is raised with no change; otherwise the outcome is that of the scaffold steps for the builder and its rendered text, so `ScaffoldRefuses` and `ScaffoldWrites` describe `run`; every outcome keeps `Valid` |
| ScaffoldCommand.Run | aoctool/commands/scaffold.py:15-23 | in place, the result and new state are those of `RunSpec` |
| DownloadCommand.DataDownloader.PuzzleDir | aoctool/commands/download.py:18-20 | the downloader's own `{year}_{day:02d}` directory lies directly in the output root and is named `Puzzle.name` |
| DownloadCommand.DataDownloader.InputDataPath | aoctool/commands/download.py:27 | the input data goes to `input.txt` directly in the puzzle directory |
| DownloadCommand.DataDownloader.DescriptionPath | aoctool/commands/download.py:30 | the description goes to `description.html` directly in the puzzle directory |
| DownloadCommand.SamePuzzleDir | aoctool/commands/download.py:18-20 | the downloader's puzzle directory and input file are the builder's |
| DownloadCommand.DownloadSpec | aoctool/commands/download.py:22-32 | the steps of `download` keep `Valid` |
| DownloadCommand.DownloadContents | aoctool/commands/download.py:22-32 | with the cached files present and nothing in the way, the download succeeds: the puzzle directory exists, `input.txt` and `description.html` hold the cached input and prose, no other file changes, and the only directories added are the puzzle directory and its missing ancestors, none when it already existed |
| DownloadCommand.CopyTwice | aoctool/commands/download.py:28-31 | two copies whose targets can be written put each source's text in its target and change nothing else |
| DownloadCommand.CopyUnchanged | aoctool/commands/download.py:28 | copying onto a target that already holds the source's text changes nothing |
| DownloadCommand.CopyTwiceAgain | aoctool/commands/download.py:28-31 | repeating two successful copies into different files that do not overwrite each other's source changes nothing |
| DownloadCommand.DownloadIdempotent | aoctool/commands/download.py:22-32 | downloading again after a success changes nothing |
| DownloadCommand.Download | aoctool/commands/download.py:22-32 | in place, the result and new state are those of `DownloadSpec` |
| RunCommand.PartChoice | aoctool/commands/run.py:13 | `--part` is accepted exactly when absent, 1 or 2 |
| RunCommand.Dispatch | aoctool/commands/run.py:18-23 | `--submit` with a part raises `ValueError`; `--submit` alone submits; otherwise the given part, possibly none, is run |
| RunCommand.RunSpec | aoctool/commands/run.py:16-23 | a part other than 1 or 2 is refused; an unknown language raises `KeyError`; submission happens exactly under `--submit`; a part that is run is 1 or 2 |

## Left out

- Subprocesses. `cabal init`, `cabal install` and `cargo build` are modelled as argument vectors only. What they leave on disk is a parameter: `Builder.DoCompile`'s `external` and the state that `HaskellDriver.FinishScaffold` starts from.
- Foreign calls are parameters:
  - jinja2 rendering is `render`;
  - `Path.resolve` is `resolve`, or the string `resolvedDir`;
  - `toml.dump` is `dump`.
- `HaskellDriver.FinishScaffold`: models only the steps after `cabal init`. `super().make_scaffold` and `get_src_path` are not part of this model, because `_base.py` in this revision does not define them. The source path is a parameter.
- `RustDriver.MakeScaffold`: models only the manifest step, for the same reason.
- `Builder.HaskellExecName`, `Builder.RustExecName`, `Builder.HaskellInstallsIntoBuildDir`: `_base.py` and the three-argument `haskell.py`/`rust.py` come from different revisions, and neither `_base.py` nor the drivers say which source path (`get_src_path`) or scaffold directory the drivers' `get_exec_name`, `get_exec_path` and `compile_source` are given. These lemmas assume the builder's scaffold path, language directory and build directory; the model does not promise that the tool pairs them so.
- `Builder.DoCompile`: for Haskell and Rust, the path returned by the two-argument `compile_source` of `_base.py` is not derived from the three-argument drivers. Those drivers belong to another revision.
- The aocd client and the network: `answered_a`, `User`, `input_data`, and submission.
  - `DownloadCommand.Download` starts from the cache files that `puzzle.input_data` leaves behind (`PuzzleCache`).
  - `get_puzzle_from_args` is not part of this model, so the downloader takes the puzzle as given.
- `Utils.DefaultSessionCookie`: a dotfile that exists but cannot be opened (a directory gives `IsADirectoryError`, an unreadable file `PermissionError`) is not modelled; `Env.sessionFile` is None only when the file does not exist, which gives `FileNotFoundError`.
- The environment and the clock: `AOC_SESSION`, the home directory, the dotfile contents and the current year are fields of `Utils.Env`.
- Newline translation when a text file is read or written. Files are assumed to use `\n`.
- `log` and `print` output, including the `cd … &&` log lines.
- CLI wiring, none of which is in this model:
  - `main.py`;
  - `commands/compile.py`;
  - the `configure_*` argparse helpers;
  - argparse's own `--language` choice check.
- `RunCommand.PartChoice`: argparse's rejection (exit status 2) is modelled as a `ValueError`.
- `RunCommand.RunSpec`: `_base.py` does not define `do_run` or `do_submit`. The model stops at the choice of action.
- Behaviour the tests expect that the code does not implement:
  - a `2023/01` puzzle directory (the code gives `2023_01`);
  - `main.py` as the Python executable (the code returns the source);
  - `scaffold_dir`, `src_path` and `exec_path` on the builder;
  - `do_scaffold(force)`;
  - `get_description_path`.
- `Paths.PathStr`: paths are relative to the directory the tool runs in and have no `.` or `..` components. An absolute `--output-dir` (one starting with `/`) prints with its leading `/` in the tool, but not in this model, so `ScaffoldCommand.RefusalMessage`, the `Failed to compile` message of `Builder.CompileSpec` and the `--manifest-path`/`--target-dir` values of `RustDriver.CompileSource` match the tool only for relative output roots; a `..` component is treated as an ordinary directory name.
- Sharing and aliasing of real files (links, case-insensitive names) and permissions.

=== FILE: builder.dfy ===
/** `AoCBuilder` of `aoctool/drivers/_base.py`: where a puzzle's files live
    for one language, rendering the scaffold, and compiling it. */
module Builder {
  import opened Outcomes
  import opened Text
  import opened Paths
  import opened Utils
  import opened Drivers
  import opened FileSystem
  import PythonDriver
  import HaskellDriver
  import RustDriver

  datatype AoCBuilder = AoCBuilder(driver: Driver, puzzle: Puzzle, outputDir: Path) {

    /** `output_dir / puzzle.name`. */
    function PuzzleDir(): (p: Path)
      ensures Parent(p) == outputDir && FileName(p) == Name(puzzle)
    {
      Child(outputDir, Name(puzzle))
    }

    /** `puzzle_dir / 'input.txt'`. */
    function InputDataPath(): (p: Path)
      ensures Parent(p) == PuzzleDir() && FileName(p) == "input.txt"
    {
      Child(PuzzleDir(), "input.txt")
    }

    /** `puzzle_dir / language`. */
    function LanguageDir(): (p: Path)
      ensures Parent(p) == PuzzleDir() && FileName(p) == driver.Language()
    {
      Child(PuzzleDir(), driver.Language())
    }

    /** `language_dir / 'build'`. */
    function BuildDir(): (p: Path)
      ensures Parent(p) == LanguageDir() && FileName(p) == "build"
    {
      Child(LanguageDir(), "build")
    }

    /** `language_dir / '{puzzle.name}.{file_extension}'`. */
    function ScaffoldPath(): (p: Path)
      ensures Parent(p) == LanguageDir() && FileName(p) == Name(puzzle) + "." + driver.FileExtension()
    {
      Child(LanguageDir(), Name(puzzle) + "." + driver.FileExtension())
    }
  }

  /** The directory tree of one puzzle: the puzzle directory under the output
      root holds the input data and one directory per language, which holds
      the scaffold source and the build directory. The source file's stem is
      the puzzle's name, and no two of these paths coincide. */
  lemma Layout(b: AoCBuilder)
    ensures Parent(b.PuzzleDir()) == b.outputDir
    ensures Parent(b.InputDataPath()) == b.PuzzleDir() && Parent(b.LanguageDir()) == b.PuzzleDir()
    ensures Parent(b.BuildDir()) == b.LanguageDir() && Parent(b.ScaffoldPath()) == b.LanguageDir()
    ensures Stem(FileName(b.ScaffoldPath())) == Name(b.puzzle)
    ensures b.InputDataPath() != b.LanguageDir() && b.ScaffoldPath() != b.BuildDir()
  {
    ScaffoldStem(b);
    LayoutDistinct(b);
  }

  lemma ScaffoldStem(b: AoCBuilder)
    ensures Stem(FileName(b.ScaffoldPath())) == Name(b.puzzle)
  {
    DriversDistinct(b.driver, b.driver);
    assert Name(b.puzzle) != [] by {
      assert |IntToString(b.puzzle.year)| >= 1;
    }
    StemOfNameWithExtension(Name(b.puzzle), b.driver.FileExtension());
  }

  lemma LayoutDistinct(b: AoCBuilder)
    ensures b.InputDataPath() != b.LanguageDir() && b.ScaffoldPath() != b.BuildDir()
  {
    DriversDistinct(b.driver, b.driver);
    var name := Name(b.puzzle);
    var file := name + "." + b.driver.FileExtension();
    assert FileName(b.ScaffoldPath()) == file;
    assert file[|name|] == '.' && '.' !in "build";
    assert "input.txt"[5] == '.';
  }

  /** Two builders for the same puzzle and output root but different languages
      share the puzzle directory and input data and nothing else. */
  lemma LanguagesSeparate(b: AoCBuilder, c: AoCBuilder)
    requires b.puzzle == c.puzzle && b.outputDir == c.outputDir && b.driver != c.driver
    ensures b.PuzzleDir() == c.PuzzleDir() && b.InputDataPath() == c.InputDataPath()
    ensures b.LanguageDir() != c.LanguageDir()
    ensures b.BuildDir() != c.BuildDir() && b.ScaffoldPath() != c.ScaffoldPath()
  {
    DriversDistinct(b.driver, c.driver);
    assert b.LanguageDir()[|b.PuzzleDir()|] == b.driver.Language();
    assert b.BuildDir()[|b.PuzzleDir()|] == b.driver.Language();
    assert b.ScaffoldPath()[|b.PuzzleDir()|] == b.driver.Language();
    assert c.ScaffoldPath()[|c.PuzzleDir()|] == c.driver.Language();
  }

  /** Puzzles of different dates get different puzzle directories. */
  lemma PuzzlesSeparate(b: AoCBuilder, c: AoCBuilder)
    requires ValidDay(b.puzzle.day) && ValidDay(c.puzzle.day) && b.outputDir == c.outputDir
    ensures b.PuzzleDir() == c.PuzzleDir() <==> b.puzzle.year == c.puzzle.year && b.puzzle.day == c.puzzle.day
  {
    NameInjective(b.puzzle, c.puzzle);
    if b.PuzzleDir() == c.PuzzleDir() {
      assert b.PuzzleDir()[|b.outputDir|] == Name(b.puzzle);
    }
  }

  /** For a source at the builder's scaffold path, the Haskell executable is
      "aoc" followed by the year and the two-digit day: "aoc202301" for
      1 December 2023. */
  lemma HaskellExecName(b: AoCBuilder)
    ensures HaskellDriver.ExecName(b.ScaffoldPath()) == "aoc" + IntToString(b.puzzle.year) + Pad2(b.puzzle.day)
  {
    Layout(b);
    var ys, ds := IntToString(b.puzzle.year), Pad2(b.puzzle.day);
    IntToStringChars(b.puzzle.year);
    IntToStringChars(b.puzzle.day);
    RemoveSeparator(ys, ds, '_');
    assert Name(b.puzzle) == ys + ['_'] + ds;
  }

  /** For a source at the builder's scaffold path and the builder's build
      directory, the Rust binary is named after the puzzle and is looked for
      in the `release` directory under that build directory. */
  lemma RustExecName(b: AoCBuilder)
    ensures RustDriver.ExecPath(b.ScaffoldPath(), b.BuildDir()) == b.BuildDir() + ["release", Name(b.puzzle)]
    ensures RustDriver.Manifest(b.LanguageDir(), b.ScaffoldPath()).Ok?
    ensures RustDriver.Manifest(b.LanguageDir(), b.ScaffoldPath()).value.bin[0].name == Name(b.puzzle)
  {
    Layout(b);
    RustDriver.ManifestPathOfScaffold(b.LanguageDir(), Name(b.puzzle) + "." + b.driver.FileExtension());
  }

  /** When the scaffold directory handed to `cabal install` is the builder's
      language directory and the source is at the builder's scaffold path,
      the install directory is the builder's build directory, where the
      executable is looked for. */
  lemma HaskellInstallsIntoBuildDir(b: AoCBuilder)
    ensures var inv := HaskellDriver.CompileSource(b.LanguageDir(), b.ScaffoldPath(), b.BuildDir());
      && inv.cwd == Some(b.LanguageDir())
      && Child(inv.cwd.value, "build") == b.BuildDir()
      && Parent(HaskellDriver.ExecPath(b.ScaffoldPath(), b.BuildDir())) == b.BuildDir()
  {
    HaskellDriver.InstallDirHoldsExecutable(b.LanguageDir(), b.ScaffoldPath());
  }

  // ---------------------------------------------------------------- scaffolding

  /** The text `do_scaffold` writes: the driver's template rendered for the
      puzzle and its input data path. */
  function ScaffoldText(b: AoCBuilder, render: (Path, TemplateVars) -> string, resolve: Path -> string): (r: string)
    ensures exists v: TemplateVars ::
      && r == render(TemplatePath(b.driver), v)
      && v.puzzle == b.puzzle && v.inputDataPath == resolve(b.InputDataPath())
  {
    RenderScaffold(b.driver, b.puzzle, b.InputDataPath(), render, resolve)
  }

  /** `do_scaffold`: renders the template and writes it to the scaffold path
      with `write_file`. */
  method DoScaffold(fs: FileSystem, b: AoCBuilder, render: (Path, TemplateVars) -> string, resolve: Path -> string)
    returns (r: Outcome)
    requires fs.State().Valid()
    modifies fs
    ensures (r, fs.State()) == WriteText(old(fs.State()), b.ScaffoldPath(), ScaffoldText(b, render, resolve))
  {
    var text := ScaffoldText(b, render, resolve);
    r := fs.Write(b.ScaffoldPath(), text);
  }

  // ---------------------------------------------------------------- compiling

  /** What the driver's `compile_source(src_path, build_dir)` leaves behind.
      Python returns the source itself and changes nothing; for the compiled
      languages the subprocess's effect is `external`. */
  function DriverCompile(d: Driver, src: Path, buildDir: Path, st: FsState, external: CompileEffect): (e: CompileEffect)
    ensures d == Python ==> e == CompileEffect(src, st.dirs, st.files)
    ensures d != Python ==> e == external
  {
    match d
    case Python => CompileEffect(PythonDriver.CompileSource(src, buildDir), st.dirs, st.files)
    case _ => external
  }

  /** `do_compile`: a missing source raises `FileNotFoundError` before
      anything runs; otherwise the driver compiles, and an executable path
      that does not exist afterwards raises `RuntimeError`. */
  function CompileSpec(st: FsState, b: AoCBuilder, external: CompileEffect): (r: (Outcome, FsState))
    ensures !st.Exists(b.ScaffoldPath()) ==> r == (Fail(FileNotFound(b.ScaffoldPath())), st)
    ensures st.Exists(b.ScaffoldPath()) ==>
      var e := DriverCompile(b.driver, b.ScaffoldPath(), b.BuildDir(), st, external);
      && r.1 == FsState(e.dirs, e.files)
      && (r.0 == Pass <==> r.1.Exists(e.execPath))
      && (r.0 != Pass ==> r.0 == Fail(RuntimeError("Failed to compile " + PathStr(b.ScaffoldPath()))))
  {
    var src := b.ScaffoldPath();
    if !st.Exists(src) then (Fail(FileNotFound(src)), st)
    else
      var e := DriverCompile(b.driver, src, b.BuildDir(), st, external);
      var st' := FsState(e.dirs, e.files);
      if !st'.Exists(e.execPath) then (Fail(RuntimeError("Failed to compile " + PathStr(src))), st')
      else (Pass, st')
  }

  /** Compiling an existing Python scaffold always succeeds and changes nothing. */
  lemma PythonCompileSucceeds(st: FsState, b: AoCBuilder, external: CompileEffect)
    requires b.driver == Python && st.Exists(b.ScaffoldPath())
    ensures CompileSpec(st, b, external) == (Pass, st)
  {
  }

  /** `do_compile`, applied in place; `external` is what the driver's
      subprocess leaves behind. */
  method DoCompile(fs: FileSystem, b: AoCBuilder, external: CompileEffect) returns (r: Outcome)
    modifies fs
    ensures (r, fs.State()) == CompileSpec(old(fs.State()), b, external)
  {
    var src := b.ScaffoldPath();
    var present := fs.Exists(src);
    if !present {
      return Fail(FileNotFound(src));
    }
    var e := DriverCompile(b.driver, src, b.BuildDir(), fs.State(), external);
    fs.dirs, fs.files := e.dirs, e.files;
    var built := fs.Exists(e.execPath);
    if !built {
      return Fail(RuntimeError("Failed to compile " + PathStr(src)));
    }
    r := Pass;
  }
}

=== FILE: download_cmd.dfy ===
/** `aoctool/commands/download.py`: copy a puzzle's input data and its
    description from the local puzzle cache into the puzzle directory. */
module DownloadCommand {
  import opened Outcomes
  import opened Text
  import opened Paths
  import opened Utils
  import opened FileSystem
  import opened Builder

  /** `DataDownloader`: a puzzle and the output root. */
  datatype DataDownloader = DataDownloader(puzzle: Puzzle, outputDir: Path) {

    /** `output_dir / f'{year}_{day:02d}'`: spelled out here, it is the
        directory named after the puzzle, as the builder's is. */
    function PuzzleDir(): (p: Path)
      ensures Parent(p) == outputDir && FileName(p) == Name(puzzle)
    {
      Child(outputDir, IntToString(puzzle.year) + "_" + Pad2(puzzle.day))
    }

    /** `puzzle_dir / 'input.txt'`. */
    function InputDataPath(): (p: Path)
      ensures Parent(p) == PuzzleDir() && FileName(p) == "input.txt"
    {
      Child(PuzzleDir(), "input.txt")
    }

    /** `puzzle_dir / 'description.html'`. */
    function DescriptionPath(): (p: Path)
      ensures Parent(p) == PuzzleDir() && FileName(p) == "description.html"
    {
      Child(PuzzleDir(), "description.html")
    }
  }

  /** The downloader and the builder agree on where a puzzle's files go: the
      same puzzle directory, and the input data the scaffold reads is the file
      the download writes. */
  lemma SamePuzzleDir(dl: DataDownloader, b: AoCBuilder)
    requires dl.puzzle == b.puzzle && dl.outputDir == b.outputDir
    ensures dl.PuzzleDir() == b.PuzzleDir()
    ensures dl.InputDataPath() == b.InputDataPath()
  {
  }

  /** Where the puzzle library keeps a puzzle once `puzzle.input_data` has
      fetched it: `puzzle.input_data_path` and `puzzle.prose0_path`. */
  datatype PuzzleCache = PuzzleCache(inputDataPath: Path, prose0Path: Path)

  /** `p` lies inside the directory `dir` (or is `dir`). */
  predicate Under(p: Path, dir: Path)
  {
    |dir| <= |p| && p[..|dir|] == dir
  }

  /** `download`: create the puzzle directory when it is missing, then copy
      the input data and the description into it. */
  function DownloadSpec(st: FsState, dl: DataDownloader, cache: PuzzleCache): (r: (Outcome, FsState))
    requires st.Valid()
    ensures r.1.Valid()
  {
    var pd := dl.PuzzleDir();
    var (r1, st1) := if !st.Exists(pd) then MakeDirs(st, pd) else (Pass, st);
    if r1 != Pass then (r1, st1)
    else
      var (r2, st2) := CopyFile(st1, cache.inputDataPath, dl.InputDataPath());
      if r2 != Pass then (r2, st2)
      else CopyFile(st2, cache.prose0Path, dl.DescriptionPath())
  }

  /** `download`, applied in place. */
  method Download(fs: FileSystem, dl: DataDownloader, cache: PuzzleCache) returns (r: Outcome)
    requires fs.State().Valid()
    modifies fs
    ensures (r, fs.State()) == DownloadSpec(old(fs.State()), dl, cache)
  {
    var pd := dl.PuzzleDir();
    var present := fs.Exists(pd);
    if !present {
      r := fs.MakeDirectory(pd);
      if r != Pass {
        return;
      }
    }
    r := fs.Copy(cache.inputDataPath, dl.InputDataPath());
    if r != Pass {
      return;
    }
    r := fs.Copy(cache.prose0Path, dl.DescriptionPath());
  }

  /** The file `shutil.copy` writes when copying `src` to `dst`. */
  function CopyTarget(st: FsState, src: Path, dst: Path): Path
  {
    if st.IsDir(dst) then Child(dst, FileName(src)) else dst
  }

  /** Both copies land inside the puzzle directory, in different files. */
  lemma TargetsInside(st: FsState, dl: DataDownloader, cache: PuzzleCache)
    ensures var pd, t1, t2 := dl.PuzzleDir(), CopyTarget(st, cache.inputDataPath, dl.InputDataPath()),
                              CopyTarget(st, cache.prose0Path, dl.DescriptionPath());
      && Under(t1, pd) && Under(t2, pd) && |t1| > |pd| && |t2| > |pd|
      && t1[|pd|] == "input.txt" && t2[|pd|] == "description.html" && t1 != t2
  {
    var pd := dl.PuzzleDir();
    var t1 := CopyTarget(st, cache.inputDataPath, dl.InputDataPath());
    var t2 := CopyTarget(st, cache.prose0Path, dl.DescriptionPath());
    assert t1[..|pd|] == pd && t1[|pd|] == "input.txt";
    assert t2[..|pd|] == pd && t2[|pd|] == "description.html";
    assert |"input.txt"| != |"description.html"|;
  }

  /** Two copies whose targets can be written, the second of which does not
      read the first one's target, write each source's text to its target. */
  lemma CopyTwice(st: FsState, src1: Path, dst1: Path, src2: Path, dst2: Path)
    requires st.Valid() && src1 in st.files && src2 in st.files
    requires var t1, t2 := CopyTarget(st, src1, dst1), CopyTarget(st, src2, dst2);
      && t1 != src1 && t1 != [] && t1 !in st.dirs && st.IsDir(Parent(t1))
      && t2 != src2 && t2 != [] && t2 !in st.dirs && st.IsDir(Parent(t2))
      && src2 != t1
    ensures var r := CopyFile(CopyFile(st, src1, dst1).1, src2, dst2);
      && r.0 == Pass
      && r.1 == FsState(st.dirs, st.files[CopyTarget(st, src1, dst1) := st.files[src1]]
                                          [CopyTarget(st, src2, dst2) := st.files[src2]])
  {
    var st2 := CopyFile(st, src1, dst1).1;
    assert st2.dirs == st.dirs && st2.files[src2] == st.files[src2];
    assert CopyTarget(st2, src2, dst2) == CopyTarget(st, src2, dst2);
  }

  /** With both cached files present and kept outside the puzzle directory,
      and nothing in the way, the download succeeds: the puzzle directory
      exists, `input.txt` holds the cached input data, `description.html`
      holds the cached description, and no other file changes. */
  lemma DownloadContents(st: FsState, dl: DataDownloader, cache: PuzzleCache)
    requires st.Valid()
    requires cache.inputDataPath in st.files && cache.prose0Path in st.files
    requires !Under(cache.inputDataPath, dl.PuzzleDir()) && !Under(cache.prose0Path, dl.PuzzleDir())
    requires !st.IsFile(dl.PuzzleDir()) && !st.AncestorIsFile(dl.PuzzleDir())
    requires dl.InputDataPath() !in st.dirs && dl.DescriptionPath() !in st.dirs
    ensures var r := DownloadSpec(st, dl, cache);
      && r.0 == Pass
      && r.1.IsDir(dl.PuzzleDir())
      && r.1.dirs == st.dirs + (if st.IsDir(dl.PuzzleDir()) then {} else Prefixes(dl.PuzzleDir()))
      && r.1.files == st.files[dl.InputDataPath() := st.files[cache.inputDataPath]]
                              [dl.DescriptionPath() := st.files[cache.prose0Path]]
  {
    var pd := dl.PuzzleDir();
    var st1 := if !st.Exists(pd) then MakeDirs(st, pd).1 else st;
    assert st1.IsDir(pd) && st1.files == st.files;
    assert st.dirs + {} == st.dirs;
    assert st1.dirs == st.dirs + (if st.IsDir(pd) then {} else Prefixes(pd));
    assert dl.InputDataPath() !in Prefixes(pd) && dl.DescriptionPath() !in Prefixes(pd);
    assert !st1.IsDir(dl.InputDataPath()) && !st1.IsDir(dl.DescriptionPath());
    TargetsInside(st1, dl, cache);
    CopyTwice(st1, cache.inputDataPath, dl.InputDataPath(), cache.prose0Path, dl.DescriptionPath());
  }

  /** Copying a file whose target already holds the same text changes nothing. */
  lemma CopyUnchanged(st: FsState, src: Path, dst: Path)
    requires st.Valid() && src in st.files
    requires var t := CopyTarget(st, src, dst);
      t != src && t in st.files && st.files[t] == st.files[src] && WriteText(st, t, st.files[src]).0 == Pass
    ensures CopyFile(st, src, dst) == (Pass, st)
  {
    var t := CopyTarget(st, src, dst);
    assert st.files[t := st.files[src]] == st.files;
  }

  /** Repeating two successful copies into different files, neither of which
      overwrites the other's source, changes nothing. */
  lemma CopyTwiceAgain(st: FsState, src1: Path, dst1: Path, src2: Path, dst2: Path)
    requires st.Valid()
    requires CopyFile(st, src1, dst1).0 == Pass
    requires CopyFile(CopyFile(st, src1, dst1).1, src2, dst2).0 == Pass
    requires src1 != CopyTarget(st, src2, dst2) && src2 != CopyTarget(st, src1, dst1)
    requires CopyTarget(st, src1, dst1) != CopyTarget(st, src2, dst2)
    ensures var st3 := CopyFile(CopyFile(st, src1, dst1).1, src2, dst2).1;
      CopyFile(st3, src1, dst1) == (Pass, st3) && CopyFile(st3, src2, dst2) == (Pass, st3)
  {
    var st2 := CopyFile(st, src1, dst1).1;
    var st3 := CopyFile(st2, src2, dst2).1;
    var t1, t2 := CopyTarget(st, src1, dst1), CopyTarget(st, src2, dst2);
    assert st2.dirs == st.dirs && st3.dirs == st.dirs;
    assert CopyTarget(st2, src2, dst2) == t2;
    assert CopyTarget(st3, src1, dst1) == t1 && CopyTarget(st3, src2, dst2) == t2;
    assert st3.files[t1] == st3.files[src1] && st3.files[t2] == st3.files[src2];
    CopyUnchanged(st3, src1, dst1);
    CopyUnchanged(st3, src2, dst2);
  }

  /** Downloading again after a successful download changes nothing, as long
      as the cache lies outside the puzzle directory. */
  lemma DownloadIdempotent(st: FsState, dl: DataDownloader, cache: PuzzleCache)
    requires st.Valid()
    requires !Under(cache.inputDataPath, dl.PuzzleDir()) && !Under(cache.prose0Path, dl.PuzzleDir())
    requires DownloadSpec(st, dl, cache).0 == Pass
    ensures DownloadSpec(DownloadSpec(st, dl, cache).1, dl, cache) == (Pass, DownloadSpec(st, dl, cache).1)
  {
    var pd := dl.PuzzleDir();
    var st1 := if !st.Exists(pd) then MakeDirs(st, pd).1 else st;
    assert st1.IsDir(pd);
    TargetsInside(st1, dl, cache);
    CopyTwiceAgain(st1, cache.inputDataPath, dl.InputDataPath(), cache.prose0Path, dl.DescriptionPath());
  }
}

=== FILE: drivers.dfy ===
/** The language-driver contract of `aoctool/drivers/_base.py`: the closed
    set of drivers, their class constants, the template each renders, and
    what `compile_source` hands back to the builder. */
module Drivers {
  import opened Outcomes
  import opened Text
  import opened Paths
  import opened Utils

  /** One variant per `LanguageDriver` subclass. */
  datatype Driver = Haskell | Python | Rust {

    /** The class constant `language`. */
    function Language(): string
    {
      match this
      case Haskell => "haskell"
      case Python => "python"
      case Rust => "rust"
    }

    /** The class constant `file_extension`. */
    function FileExtension(): string
    {
      match this
      case Haskell => "hs"
      case Python => "py"
      case Rust => "rs"
    }
  }

  /** Different drivers have different language names and different file
      extensions (they differ in their first letter), and every extension is
      a non-empty name without a dot. */
  lemma DriversDistinct(d: Driver, e: Driver)
    ensures d.FileExtension() != [] && '.' !in d.FileExtension()
    ensures d.Language() != [] && '.' !in d.Language()
    ensures d != e ==> d.Language() != e.Language() && d.FileExtension() != e.FileExtension()
    ensures d != e ==> d.Language()[0] != e.Language()[0] && d.FileExtension()[0] != e.FileExtension()[0]
  {
    match d
    case Haskell => assert d.Language()[0] == 'h' && d.FileExtension()[0] == 'h';
    case Python => assert d.Language()[0] == 'p' && d.FileExtension()[0] == 'p';
    case Rust => assert d.Language()[0] == 'r' && d.FileExtension()[0] == 'r';
  }

  // ---------------------------------------------------------------- templates

  /** `TEMPLATE_DIR`: the `templates` directory beside the package's `drivers`
      directory, written relative to the installation root. */
  const TEMPLATE_DIR: Path := ["aoctool", "templates"]

  /** `LanguageDriver.template_path`: `TEMPLATE_DIR / '{language}.jinja2'`. */
  function TemplatePath(d: Driver): (p: Path)
    ensures Parent(p) == TEMPLATE_DIR && FileName(p) == d.Language() + ".jinja2"
  {
    Child(TEMPLATE_DIR, d.Language() + ".jinja2")
  }

  /** Each driver renders its own template: the template files differ. */
  lemma TemplatePathsDistinct(d: Driver, e: Driver)
    requires d != e
    ensures TemplatePath(d) != TemplatePath(e)
  {
    DriversDistinct(d, e);
    assert FileName(TemplatePath(d))[0] == d.Language()[0];
    assert FileName(TemplatePath(e))[0] == e.Language()[0];
  }

  /** A template is named after its language. */
  lemma TemplateStem(d: Driver)
    ensures Stem(FileName(TemplatePath(d))) == d.Language()
  {
    DriversDistinct(d, d);
    assert '.' !in "jinja2";
    StemOfNameWithExtension(d.Language(), "jinja2");
    assert FileName(TemplatePath(d)) == d.Language() + "." + "jinja2";
  }

  /** The variables `render_scaffold` hands to the template. */
  datatype TemplateVars = TemplateVars(language: string, puzzle: Puzzle, inputDataPath: string)

  /** The variables of `render_scaffold`: the capitalised language name, the
      puzzle, and the resolved input-data path as a string. */
  function ScaffoldVars(d: Driver, puzzle: Puzzle, inputDataPath: Path, resolve: Path -> string): (v: TemplateVars)
    ensures |v.language| == |d.Language()|
    ensures v.language[0] == ToUpper(d.Language()[0])
    ensures forall i :: 1 <= i < |v.language| ==> v.language[i] == d.Language()[i]
    ensures v.puzzle == puzzle && v.inputDataPath == resolve(inputDataPath)
  {
    DriversDistinct(d, d);
    var lang := d.Language();
    TemplateVars(Capitalize(lang), puzzle, resolve(inputDataPath))
  }

  /** The label each template sees. */
  lemma LanguageLabels(d: Driver)
    ensures Capitalize(d.Language()) == match d
      case Haskell => "Haskell"
      case Python => "Python"
      case Rust => "Rust"
  {
    match d
    case Haskell =>
    case Python =>
    case Rust =>
  }

  /** `render_scaffold`: the driver's template, rendered with its variables.
      The template engine is the parameter `render`; `resolve` stands for
      `Path.resolve`. */
  function RenderScaffold(d: Driver, puzzle: Puzzle, inputDataPath: Path,
                          render: (Path, TemplateVars) -> string, resolve: Path -> string): (r: string)
    ensures exists v: TemplateVars ::
      && r == render(TemplatePath(d), v)
      && v.language == Capitalize(d.Language())
      && v.puzzle == puzzle && v.inputDataPath == resolve(inputDataPath)
  {
    var v := ScaffoldVars(d, puzzle, inputDataPath, resolve);
    assert v.language == Capitalize(d.Language());
    render(TemplatePath(d), v)
  }

  // ---------------------------------------------------------------- compiling

  /** What `compile_source(src_path, build_dir) -> Path` leaves behind: the
      executable path it returns, and the directories and files that exist
      once it has returned. */
  datatype CompileEffect = CompileEffect(execPath: Path, dirs: set<Path>, files: map<Path, string>)

  /** A subprocess to run: its argument vector and, when given, its working directory. */
  datatype Invocation = Invocation(argv: seq<string>, cwd: Option<Path>)

  /** The value that follows the first occurrence of `flag` in an argument vector. */
  function ArgAfter(argv: seq<string>, flag: string): Option<string>
  {
    if |argv| < 2 then None
    else if argv[0] == flag then Some(argv[1])
    else ArgAfter(argv[1..], flag)
  }

  /** When `flag` first occurs at index i, its value is the argument after it. */
  lemma {:induction false} ArgAfterAt(argv: seq<string>, flag: string, i: nat)
    requires i + 1 < |argv| && argv[i] == flag
    requires forall j :: 0 <= j < i ==> argv[j] != flag
    ensures ArgAfter(argv, flag) == Some(argv[i + 1])
  {
    if i > 0 {
      assert argv[0] != flag;
      ArgAfterAt(argv[1..], flag, i - 1);
    }
  }
}

=== FILE: filesystem.dfy ===
/** The filesystem the commands act on: a set of directories and a map from
    file paths to their text. The directory the tool runs in (the empty
    path) always exists and is not listed. `FsState` and the functions below
    say what each primitive does; the class `FileSystem` holds the state and
    applies them in place. */
module FileSystem {
  import opened Outcomes
  import opened Paths

  datatype FsState = FsState(dirs: set<Path>, files: map<Path, string>) {

    /** No path is both a file and a directory, and everything above an
        entry is a directory. */
    ghost predicate Valid()
    {
      && [] !in dirs && [] !in files
      && (forall p :: p in dirs ==> p !in files)
      && (forall p, k :: p in dirs && 1 <= k < |p| ==> p[..k] in dirs)
      && (forall p, k :: p in files && 1 <= k < |p| ==> p[..k] in dirs)
    }

    predicate IsDir(p: Path) { p == [] || p in dirs }

    predicate IsFile(p: Path) { p in files }

    /** `Path.exists()`. */
    predicate Exists(p: Path) { IsDir(p) || IsFile(p) }

    /** Some directory on the way to `p` is in fact a file. */
    predicate AncestorIsFile(p: Path)
    {
      exists k :: 1 <= k < |p| && p[..k] in files
    }

    /** The error a missing path raises: ENOTDIR when a file is in the way. */
    function MissingError(p: Path): Error
    {
      if AncestorIsFile(p) then NotADirectory(p) else FileNotFound(p)
    }
  }

  /** The directory holding a file exists. */
  lemma FileParentIsDir(st: FsState, p: Path)
    requires st.Valid() && p in st.files
    ensures st.IsDir(Parent(p))
  {
    if |p| > 1 {
      assert p[..|p| - 1] in st.dirs;
    }
  }

  /** `p` and every path above it. */
  function Prefixes(p: Path): (r: set<Path>)
    ensures forall k :: 1 <= k <= |p| ==> p[..k] in r
    ensures forall q :: q in r ==> 1 <= |q| <= |p| && q == p[..|q|]
  {
    set k | 1 <= k <= |p| :: p[..k]
  }

  /** `path.mkdir(parents = True)`: creates `p` and every missing directory
      above it; raises when `p` exists already or a file is in the way. */
  function MakeDirs(st: FsState, p: Path): (r: (Outcome, FsState))
    requires st.Valid()
    ensures r.1.Valid()
    ensures r.0 == Pass <==> !st.Exists(p) && !st.AncestorIsFile(p)
    ensures r.0 == Pass ==> r.1 == FsState(st.dirs + Prefixes(p), st.files) && r.1.IsDir(p)
    ensures r.0 != Pass ==> r.1 == st
    ensures st.Exists(p) ==> r.0 == Fail(FileExists(p))
  {
    if st.Exists(p) then (Fail(FileExists(p)), st)
    else if st.AncestorIsFile(p) then (Fail(NotADirectory(p)), st)
    else
      var st' := FsState(st.dirs + Prefixes(p), st.files);
      assert p[..|p|] == p;
      assert forall q, k :: q in Prefixes(p) && 1 <= k < |q| ==> q[..k] == p[..k];
      assert forall q :: q in Prefixes(p) ==> q !in st.files by {
        forall q | q in Prefixes(p) ensures q !in st.files {
          if |q| < |p| { assert !(1 <= |q| < |p| && p[..|q|] in st.files); }
        }
      }
      (Pass, st')
  }

  /** `open(p, 'w')` followed by a write of `text`: replaces or creates the
      file when its directory exists. */
  function WriteText(st: FsState, p: Path, text: string): (r: (Outcome, FsState))
    requires st.Valid()
    ensures r.1.Valid()
    ensures r.0 == Pass <==> p != [] && p !in st.dirs && st.IsDir(Parent(p))
    ensures r.0 == Pass ==> r.1 == FsState(st.dirs, st.files[p := text])
    ensures r.0 != Pass ==> r.1 == st
  {
    if p == [] || p in st.dirs then (Fail(IsADirectory(p)), st)
    else if !st.IsDir(Parent(p)) then (Fail(st.MissingError(p)), st)
    else
      var st' := FsState(st.dirs, st.files[p := text]);
      assert forall k :: 1 <= k < |p| - 1 ==> p[..k] == Parent(p)[..k];
      (Pass, st')
  }

  /** `shutil.copy(src, dst)`: into `dst`, or into `dst / src.name` when
      `dst` is a directory; copying an existing file or directory onto itself
      raises `SameFileError` before anything is opened. */
  function CopyFile(st: FsState, src: Path, dst: Path): (r: (Outcome, FsState))
    requires st.Valid()
    ensures r.1.Valid()
    ensures var target := if st.IsDir(dst) then Child(dst, FileName(src)) else dst;
      && (r.0 == Pass <==> src in st.files && src != target && WriteText(st, target, st.files[src]).0 == Pass)
      && (r.0 == Pass ==> r.1 == FsState(st.dirs, st.files[target := st.files[src]]))
    ensures r.0 != Pass ==> r.1 == st
    ensures st.Exists(src) && src == (if st.IsDir(dst) then Child(dst, FileName(src)) else dst) ==> r.0 == Fail(SameFile(src))
  {
    var target := if st.IsDir(dst) then Child(dst, FileName(src)) else dst;
    if st.Exists(src) && src == target then (Fail(SameFile(src)), st)
    else if src !in st.files then
      (Fail(if st.IsDir(src) then IsADirectory(src) else st.MissingError(src)), st)
    else WriteText(st, target, st.files[src])
  }

  /** `Path.unlink()`: removes a file; a directory or a missing path raises. */
  function Unlink(st: FsState, p: Path): (r: (Outcome, FsState))
    requires st.Valid()
    ensures r.1.Valid()
    ensures r.0 == Pass <==> p in st.files
    ensures r.0 == Pass ==> r.1 == FsState(st.dirs, st.files - {p})
    ensures r.0 != Pass ==> r.1 == st
  {
    if p in st.files then (Pass, FsState(st.dirs, st.files - {p}))
    else if st.IsDir(p) then (Fail(IsADirectory(p)), st)
    else (Fail(st.MissingError(p)), st)
  }

  /** The filesystem, updated in place by the commands. */
  class FileSystem {
    var dirs: set<Path>
    var files: map<Path, string>

    function State(): FsState
      reads this
    {
      FsState(dirs, files)
    }

    constructor (st: FsState)
      requires st.Valid()
      ensures State() == st
    {
      dirs := st.dirs;
      files := st.files;
    }

    method Exists(p: Path) returns (b: bool)
      ensures b == State().Exists(p)
    {
      b := p == [] || p in dirs || p in files;
    }

    method MakeDirectory(p: Path) returns (r: Outcome)
      requires State().Valid()
      modifies this
      ensures (r, State()) == MakeDirs(old(State()), p)
    {
      if p == [] || p in dirs || p in files {
        return Fail(FileExists(p));
      }
      if exists k :: 1 <= k < |p| && p[..k] in files {
        return Fail(NotADirectory(p));
      }
      dirs := dirs + Prefixes(p);
      r := Pass;
    }

    method Write(p: Path, text: string) returns (r: Outcome)
      requires State().Valid()
      modifies this
      ensures (r, State()) == WriteText(old(State()), p, text)
    {
      if p == [] || p in dirs {
        return Fail(IsADirectory(p));
      }
      if !(Parent(p) == [] || Parent(p) in dirs) {
        return Fail(State().MissingError(p));
      }
      files := files[p := text];
      r := Pass;
    }

    method Copy(src: Path, dst: Path) returns (r: Outcome)
      requires State().Valid()
      modifies this
      ensures (r, State()) == CopyFile(old(State()), src, dst)
    {
      var target := dst;
      if dst == [] || dst in dirs {
        target := Child(dst, FileName(src));
      }
      if (src == [] || src in dirs || src in files) && src == target {
        return Fail(SameFile(src));
      }
      if src !in files {
        return Fail(if src == [] || src in dirs then IsADirectory(src) else State().MissingError(src));
      }
      r := Write(target, files[src]);
    }

    method Remove(p: Path) returns (r: Outcome)
      requires State().Valid()
      modifies this
      ensures (r, State()) == Unlink(old(State()), p)
    {
      if p in files {
        files := files - {p};
        return Pass;
      }
      r := Fail(if p == [] || p in dirs then IsADirectory(p) else State().MissingError(p));
    }
  }
}

=== FILE: haskell.dfy ===
/** `aoctool/drivers/haskell.py`: the executable name derived from the source
    file, the `cabal init` and `cabal install` invocations, the manifest
    clean-up that follows `cabal init`, and where the executable lands. */
module HaskellDriver {
  import opened Outcomes
  import opened Text
  import opened Paths
  import opened Drivers
  import opened FileSystem

  /** The class constants of `HaskellDriver`. */
  lemma Constants()
    ensures Haskell.Language() == "haskell" && Haskell.FileExtension() == "hs"
  {
  }

  /** `get_exec_name`: "aoc" followed by the source file's stem with every
      underscore removed. */
  function ExecName(src: Path): (name: string)
    ensures |name| == 3 + |Stem(FileName(src))| - Count(Stem(FileName(src)), '_')
    ensures |name| >= 3 && name[..3] == "aoc" && '_' !in name
    ensures forall d :: d != '_' ==> Count(name[3..], d) == Count(Stem(FileName(src)), d)
  {
    var stem := Stem(FileName(src));
    RemoveAllSpec(stem, '_');
    var name := "aoc" + RemoveAll(stem, '_');
    assert name[3..] == RemoveAll(stem, '_');
    assert forall i :: 0 <= i < 3 ==> name[i] != '_';
    name
  }

  /** A stem without underscores is kept whole, in order. */
  lemma ExecNamePlain(src: Path)
    requires '_' !in Stem(FileName(src))
    ensures ExecName(src) == "aoc" + Stem(FileName(src))
  {
    RemoveAllAbsent(Stem(FileName(src)), '_');
  }

  /** Up to its first underscore the stem is copied as it is; the underscore
      is dropped and the rest follows, so the characters keep their order. */
  lemma ExecNameSplit(src: Path, x: string, y: string)
    requires Stem(FileName(src)) == x + "_" + y && '_' !in x
    ensures ExecName(src) == "aoc" + x + RemoveAll(y, '_')
  {
    RemoveAllAppend(x + "_", y, '_');
    RemoveTrailing(x, '_');
  }

  /** `get_exec_path`: the executable, named by `ExecName`, directly inside the build directory. */
  function ExecPath(src: Path, buildDir: Path): (p: Path)
    ensures Parent(p) == buildDir && FileName(p) == ExecName(src)
  {
    Child(buildDir, ExecName(src))
  }

  /** The manifest `cabal init` writes: `scaffold_dir / f'{name}.cabal'`. */
  function ManifestPath(scaffoldDir: Path, src: Path): (p: Path)
    ensures Parent(p) == scaffoldDir
    ensures FileName(p) == ExecName(src) + ".cabal"
    ensures Stem(FileName(p)) == ExecName(src)
  {
    var name := ExecName(src);
    CabalFileStem(name);
    Child(scaffoldDir, name + ".cabal")
  }

  lemma CabalFileStem(name: string)
    requires name != []
    ensures Stem(name + ".cabal") == name
  {
    assert '.' !in "cabal";
    StemOfNameWithExtension(name, "cabal");
    assert name + ".cabal" == name + "." + "cabal";
  }

  /** The change log `cabal init` writes beside the manifest. */
  function ChangelogPath(scaffoldDir: Path): (p: Path)
    ensures Parent(p) == scaffoldDir && FileName(p) == "CHANGELOG.md"
  {
    Child(scaffoldDir, "CHANGELOG.md")
  }

  /** The manifest and the change log are different files. */
  lemma ManifestIsNotChangelog(scaffoldDir: Path, src: Path)
    ensures ManifestPath(scaffoldDir, src) != ChangelogPath(scaffoldDir)
  {
    var m := ExecName(src) + ".cabal";
    assert m[|m| - 1] == 'l';
    assert "CHANGELOG.md"[11] == 'd';
    assert FileName(ManifestPath(scaffoldDir, src)) == m;
  }

  /** The argument vector of `cabal init`; `resolvedDir` is `str(scaffold_dir.resolve())`,
      an absolute path. */
  function CabalInitCommand(src: Path, resolvedDir: string): (argv: seq<string>)
    ensures |argv| == 13 && argv[..5] == ["cabal", "init", "--non-interactive", "--exe", "--minimal"]
  {
    ["cabal", "init", "--non-interactive", "--exe", "--minimal",
     "--package-name", ExecName(src), "--package-dir", resolvedDir,
     "--application-dir", ".", "--main-is", FileName(src)]
  }

  /** `cabal init` names the package after the executable, so the manifest it
      writes is the one `ManifestPath` names; the package lives in the scaffold
      directory, the application directory is that same directory, and the
      main module is the source file. */
  lemma CabalInitArguments(scaffoldDir: Path, src: Path, resolvedDir: string)
    requires resolvedDir != [] && resolvedDir[0] == '/'
    ensures var argv := CabalInitCommand(src, resolvedDir);
      && argv[..2] == ["cabal", "init"]
      && ArgAfter(argv, "--package-name") == Some(Stem(FileName(ManifestPath(scaffoldDir, src))))
      && ArgAfter(argv, "--package-dir") == Some(resolvedDir)
      && ArgAfter(argv, "--application-dir") == Some(".")
      && ArgAfter(argv, "--main-is") == Some(FileName(src))
  {
    var argv := CabalInitCommand(src, resolvedDir);
    assert argv[..2] == ["cabal", "init"];
    CabalPackageArguments(src, resolvedDir);
    CabalApplicationArguments(src, resolvedDir);
  }

  lemma CabalPackageArguments(src: Path, resolvedDir: string)
    requires resolvedDir != [] && resolvedDir[0] == '/'
    ensures var argv := CabalInitCommand(src, resolvedDir);
      && ArgAfter(argv, "--package-name") == Some(ExecName(src))
      && ArgAfter(argv, "--package-dir") == Some(resolvedDir)
  {
    var argv := CabalInitCommand(src, resolvedDir);
    assert argv[6][0] == 'a';
    ArgAfterAt(argv, "--package-name", 5);
    ArgAfterAt(argv, "--package-dir", 7);
  }

  lemma CabalApplicationArguments(src: Path, resolvedDir: string)
    requires resolvedDir != [] && resolvedDir[0] == '/'
    ensures var argv := CabalInitCommand(src, resolvedDir);
      && ArgAfter(argv, "--application-dir") == Some(".")
      && ArgAfter(argv, "--main-is") == Some(FileName(src))
  {
    var argv := CabalInitCommand(src, resolvedDir);
    assert argv[6][0] == 'a' && argv[8][0] == '/';
    ArgAfterAt(argv, "--application-dir", 9);
    ArgAfterAt(argv, "--main-is", 11);
  }

  // ---------------------------------------------------------------- manifest clean-up

  /** A manifest line survives unless it starts with "extra-doc-files". */
  predicate KeepLine(l: string)
  {
    !StartsWith(l, "extra-doc-files")
  }

  /** `[line for line in f if not line.startswith('extra-doc-files')]`. */
  function FilterLines(ls: seq<string>): (r: seq<string>)
    ensures |r| <= |ls|
    ensures forall i :: 0 <= i < |r| ==> KeepLine(r[i])
    ensures forall l :: l in r ==> l in ls
    ensures forall l :: l in ls && KeepLine(l) ==> l in r
  {
    if ls == [] then []
    else
      var rest := FilterLines(ls[1..]);
      assert forall l :: l in ls ==> l == ls[0] || l in ls[1..];
      (if KeepLine(ls[0]) then [ls[0]] else []) + rest
  }

  /** Filtering a concatenation filters each part, so the kept lines stay in
      their order and keep their multiplicity. */
  lemma {:induction false} FilterLinesAppend(a: seq<string>, b: seq<string>)
    ensures FilterLines(a + b) == FilterLines(a) + FilterLines(b)
  {
    if a == [] {
      assert a + b == b;
    } else {
      var a1, head := a[1..], if KeepLine(a[0]) then [a[0]] else [];
      assert (a + b)[0] == a[0] && (a + b)[1..] == a1 + b;
      calc {
        FilterLines(a + b);
        head + FilterLines(a1 + b);
        { FilterLinesAppend(a1, b); }
        head + (FilterLines(a1) + FilterLines(b));
        (head + FilterLines(a1)) + FilterLines(b);
        FilterLines(a) + FilterLines(b);
      }
    }
  }

  /** A single line is kept exactly when it does not start with "extra-doc-files". */
  lemma FilterLinesSingle(l: string)
    ensures FilterLines([l]) == if KeepLine(l) then [l] else []
  {
    assert [l][1..] == [];
  }

  /** Filtering the lines of a text keeps them lines of a text. */
  lemma {:induction false} FilterWellFormed(ls: seq<string>)
    requires WellFormedLines(ls)
    ensures WellFormedLines(FilterLines(ls))
  {
    if ls != [] {
      TailWellFormed(ls);
      FilterWellFormed(ls[1..]);
      var rest := FilterLines(ls[1..]);
      if KeepLine(ls[0]) {
        if rest == [] {
          assert FilterLines(ls) == [ls[0]];
        } else {
          assert |ls| > 1 && ls[0][|ls[0]| - 1] == '\n';
          ConsWellFormed(ls[0], rest);
        }
      }
    }
  }

  /** Filtering twice filters nothing more. */
  lemma {:induction false} FilterLinesIdempotent(ls: seq<string>)
    ensures FilterLines(FilterLines(ls)) == FilterLines(ls)
  {
    if ls != [] {
      FilterLinesIdempotent(ls[1..]);
      var rest := FilterLines(ls[1..]);
      if KeepLine(ls[0]) {
        var r := [ls[0]] + rest;
        assert FilterLines(ls) == r;
        assert r[0] == ls[0] && r[1..] == rest;
        assert FilterLines(r) == [ls[0]] + FilterLines(rest);
      } else {
        assert FilterLines(ls) == [] + rest == rest;
      }
    }
  }

  /** Filtering keeps every line when none starts with "extra-doc-files". */
  lemma {:induction false} FilterLinesKeepsAll(ls: seq<string>)
    requires forall i :: 0 <= i < |ls| ==> KeepLine(ls[i])
    ensures FilterLines(ls) == ls
  {
    if ls != [] {
      FilterLinesKeepsAll(ls[1..]);
      assert [ls[0]] + ls[1..] == ls;
    }
  }

  /** The new contents of the manifest: its lines, without the
      "extra-doc-files" ones, joined back together. Read again as lines, it
      gives exactly the kept lines of the old manifest, in their order. */
  function FilterManifest(text: string): (r: string)
    ensures Lines(r) == FilterLines(Lines(text))
  {
    LinesConcat(text);
    FilterWellFormed(Lines(text));
    ConcatLines(FilterLines(Lines(text)));
    Concat(FilterLines(Lines(text)))
  }

  /** Rewriting the manifest a second time changes nothing. */
  lemma FilterManifestIdempotent(text: string)
    ensures FilterManifest(FilterManifest(text)) == FilterManifest(text)
  {
    FilterLinesIdempotent(Lines(text));
  }

  /** A manifest without an "extra-doc-files" line is left as it was. */
  lemma FilterManifestUnchanged(text: string)
    requires forall i :: 0 <= i < |Lines(text)| ==> KeepLine(Lines(text)[i])
    ensures FilterManifest(text) == text
  {
    FilterLinesKeepsAll(Lines(text));
    LinesConcat(text);
  }

  /** The steps of `make_scaffold` after `cabal init` has run: the manifest
      must exist; the change log is removed; the manifest is rewritten
      without its "extra-doc-files" lines. */
  function FinishScaffoldSpec(st: FsState, scaffoldDir: Path, src: Path): (r: (Outcome, FsState))
    requires st.Valid()
    ensures r.1.Valid()
    ensures !st.Exists(ManifestPath(scaffoldDir, src)) ==> r == (Fail(AssertionFailed("")), st)
    ensures r.0 == Pass <==> ManifestPath(scaffoldDir, src) in st.files && ChangelogPath(scaffoldDir) in st.files
    ensures r.0 == Pass ==>
      var m := ManifestPath(scaffoldDir, src);
      r.1 == FsState(st.dirs, (st.files - {ChangelogPath(scaffoldDir)})[m := FilterManifest(st.files[m])])
    ensures var c := ChangelogPath(scaffoldDir);
      st.Exists(ManifestPath(scaffoldDir, src)) && c !in st.files ==>
        r == (Fail(if st.IsDir(c) then IsADirectory(c) else st.MissingError(c)), st)
    ensures var m, c := ManifestPath(scaffoldDir, src), ChangelogPath(scaffoldDir);
      st.IsDir(m) && c in st.files ==> r == (Fail(IsADirectory(m)), FsState(st.dirs, st.files - {c}))
  {
    ManifestIsNotChangelog(scaffoldDir, src);
    CleanUpManifest(st, ManifestPath(scaffoldDir, src), ChangelogPath(scaffoldDir))
  }

  /** The same steps for a manifest `m` and a change log `c`. */
  function CleanUpManifest(st: FsState, m: Path, c: Path): (r: (Outcome, FsState))
    requires st.Valid() && m != c
    ensures r.1.Valid()
    ensures !st.Exists(m) ==> r == (Fail(AssertionFailed("")), st)
    ensures r.0 == Pass <==> m in st.files && c in st.files
    ensures r.0 == Pass ==> r.1 == FsState(st.dirs, (st.files - {c})[m := FilterManifest(st.files[m])])
    ensures st.Exists(m) && c !in st.files ==>
      r == (Fail(if st.IsDir(c) then IsADirectory(c) else st.MissingError(c)), st)
    ensures st.IsDir(m) && c in st.files ==> r == (Fail(IsADirectory(m)), FsState(st.dirs, st.files - {c}))
  {
    if !st.Exists(m) then (Fail(AssertionFailed("")), st)
    else
      var (r1, st1) := Unlink(st, c);
      if r1 != Pass then (r1, st1)
      else if m !in st1.files then (Fail(IsADirectory(m)), st1)
      else
        FileParentIsDir(st1, m);
        WriteText(st1, m, FilterManifest(st1.files[m]))
  }

  /** The manifest clean-up, applied in place. */
  method FinishScaffold(fs: FileSystem, scaffoldDir: Path, src: Path) returns (r: Outcome)
    requires fs.State().Valid()
    modifies fs
    ensures (r, fs.State()) == FinishScaffoldSpec(old(fs.State()), scaffoldDir, src)
  {
    var m := ManifestPath(scaffoldDir, src);
    var present := fs.Exists(m);
    if !present {
      return Fail(AssertionFailed(""));
    }
    r := fs.Remove(ChangelogPath(scaffoldDir));
    if r != Pass {
      return;
    }
    if m !in fs.files {
      return Fail(IsADirectory(m));
    }
    r := fs.Write(m, FilterManifest(fs.files[m]));
  }

  // ---------------------------------------------------------------- compiling

  /** `compile_source(scaffold_dir, src_path, build_dir)`: `cabal install`,
      run in the scaffold directory, building and installing into its
      `build` subdirectory. */
  function CompileSource(scaffoldDir: Path, src: Path, buildDir: Path): (inv: Invocation)
    ensures inv.cwd == Some(scaffoldDir)
    ensures |inv.argv| == 6 && inv.argv[..2] == ["cabal", "install"]
    ensures ArgAfter(inv.argv, "--builddir") == Some("build")
    ensures ArgAfter(inv.argv, "--installdir") == Some("build")
  {
    var argv := ["cabal", "install", "--builddir", "build", "--installdir", "build"];
    ArgAfterAt(argv, "--builddir", 2);
    ArgAfterAt(argv, "--installdir", 4);
    Invocation(argv, Some(scaffoldDir))
  }

  /** `cabal install` puts the executable in the `build` subdirectory of the
      directory it runs in, which is where `get_exec_path` looks when that
      subdirectory is the build directory. */
  lemma InstallDirHoldsExecutable(scaffoldDir: Path, src: Path)
    ensures var inv := CompileSource(scaffoldDir, src, Child(scaffoldDir, "build"));
      Parent(ExecPath(src, Child(scaffoldDir, "build"))) == Child(inv.cwd.value, ArgAfter(inv.argv, "--installdir").value)
  {
  }
}

=== FILE: outcomes.dfy ===
/** The exceptions the tool raises, and the wrappers that carry them. */
module Outcomes {

  /** A value that may be absent (Python's `None`). */
  datatype Option<+T> = None | Some(value: T)

  /** The Python exception classes the modelled code raises, with what each names. */
  datatype Error =
    | FileNotFound(path: seq<string>)       // FileNotFoundError on a path
    | FileExists(path: seq<string>)         // FileExistsError from mkdir
    | NotADirectory(path: seq<string>)      // a component on the way is a file
    | IsADirectory(path: seq<string>)       // opening a directory as a file
    | SameFile(path: seq<string>)           // shutil.SameFileError
    | AssertionFailed(message: string)      // a failed `assert`
    | ValueError(message: string)
    | RuntimeError(message: string)
    | KeyError(key: string)

  /** The result of an operation that returns a value or raises. */
  datatype Result<+T> = Ok(value: T) | Err(error: Error) {
    predicate IsFailure() { Err? }

    function PropagateFailure<U>(): Result<U>
      requires Err?
    {
      Err(error)
    }

    function Extract(): T
      requires Ok?
    {
      value
    }
  }

  /** The result of an operation that returns `None` or raises. */
  datatype Outcome = Pass | Fail(error: Error)
}

=== FILE: paths.dfy ===
/** `pathlib` paths as sequences of components, relative to the directory the
    tool runs in and without `.` or `..` components. The empty path is that
    directory, Python's `Path('.')`. */
module Paths {
  import opened Outcomes

  type Path = seq<string>

  /** `p / name`. */
  function Child(p: Path, name: string): (r: Path)
    ensures |r| == |p| + 1 && r[..|p|] == p && r[|p|] == name
  {
    p + [name]
  }

  /** `p.parent`; the directory the tool runs in is its own parent. */
  function Parent(p: Path): Path
  {
    if p == [] then [] else p[..|p| - 1]
  }

  /** `p.name`: the last component, or the empty string for the empty path. */
  function FileName(p: Path): string
  {
    if p == [] then "" else p[|p| - 1]
  }

  /** `str.rfind(c)`: the index of the last occurrence of `c`, or -1. */
  function RFind(s: string, c: char): (i: int)
    ensures -1 <= i < |s|
    ensures 0 <= i ==> s[i] == c
    ensures forall j :: i < j < |s| ==> s[j] != c
  {
    if s == [] then -1
    else if s[|s| - 1] == c then |s| - 1
    else RFind(s[..|s| - 1], c)
  }

  /** `PurePath.stem`: the name without its final suffix. A leading dot
      (".profile") and a trailing dot ("name.") do not start a suffix. */
  function Stem(name: string): (r: string)
    ensures |r| <= |name| && r == name[..|r|]
    ensures r != name ==> 0 < |r| < |name| - 1 && name[|r|] == '.' && '.' !in name[|r| + 1..]
    ensures r == name ==> forall i :: 0 < i < |name| - 1 && name[i] == '.' ==> '.' in name[i + 1..]
  {
    var i := RFind(name, '.');
    if 0 < i < |name| - 1 then
      assert '.' !in name[i + 1..];
      name[..i]
    else
      assert forall j :: 0 < j < |name| - 1 && name[j] == '.' ==> '.' in name[j + 1..] by {
        forall j | 0 < j < |name| - 1 && name[j] == '.' ensures '.' in name[j + 1..] {
          assert name[j + 1..][i - j - 1] == name[i];
        }
      }
      name
  }

  /** The stem of "base.ext" is "base" when "base" is not empty and "ext" is a
      non-empty extension without a dot. */
  lemma StemOfNameWithExtension(base: string, ext: string)
    requires base != [] && ext != [] && '.' !in ext
    ensures Stem(base + "." + ext) == base
  {
    var name := base + "." + ext;
    assert name[|base|] == '.';
    assert name[|base| + 1..] == ext;
    var i := RFind(name, '.');
    assert forall j :: |base| < j < |name| ==> name[j] == ext[j - |base| - 1];
    assert name[..|base|] == base;
  }

  /** `str(p)`: the components joined by "/"; the empty path prints as ".". */
  function PathStr(p: Path): string
  {
    if p == [] then "." else JoinSlash(p)
  }

  function JoinSlash(p: Path): (r: string)
    requires p != []
    ensures |p[|p| - 1]| <= |r| && r[|r| - |p[|p| - 1]|..] == p[|p| - 1]
  {
    if |p| == 1 then p[0] else p[0] + "/" + JoinSlash(p[1..])
  }

  /** `p.relative_to(base)`: the components after `base`; a `ValueError` when
      `base` is not a prefix of `p`. */
  function RelativeTo(p: Path, base: Path): (r: Result<Path>)
    ensures r.Ok? <==> |base| <= |p| && p[..|base|] == base
    ensures r.Ok? ==> base + r.value == p
  {
    if |base| <= |p| && p[..|base|] == base then
      assert base + p[|base|..] == p;
      Ok(p[|base|..])
    else Err(ValueError("not a subpath"))
  }
}

=== FILE: python.dfy ===
/** `aoctool/drivers/python.py`: Python needs no compilation. */
module PythonDriver {
  import opened Paths
  import opened Drivers

  /** The class constants of `PythonDriver`. */
  lemma Constants()
    ensures Python.Language() == "python" && Python.FileExtension() == "py"
  {
  }

  /** `compile_source(src_path, build_dir)`: the script is its own executable;
      the build directory is not used. */
  function CompileSource(src: Path, buildDir: Path): (execPath: Path)
    ensures execPath == src
  {
    src
  }
}

=== FILE: registry.dfy ===
/** `aoctool/drivers/__init__.py`: the driver table keyed by language name,
    and building an `AoCBuilder` from the command-line arguments. */
module Registry {
  import opened Outcomes
  import opened Paths
  import opened Utils
  import opened Drivers
  import opened Builder

  /** `DRIVERS`. */
  const DRIVERS: map<string, Driver> := map["haskell" := Haskell, "python" := Python, "rust" := Rust]

  /** The table's keys are exactly the languages the command line accepts,
      each key names the driver stored under it, and every driver is stored
      under its own name. */
  lemma DriversTable()
    ensures forall k :: k in DRIVERS <==> k in VALID_LANGUAGES
    ensures forall k :: k in DRIVERS ==> DRIVERS[k].Language() == k
    ensures forall d: Driver :: d.Language() in DRIVERS && DRIVERS[d.Language()] == d
  {
    forall k ensures k in DRIVERS <==> k in VALID_LANGUAGES {
      assert k in VALID_LANGUAGES <==> k == "haskell" || k == "python" || k == "rust";
    }
  }

  /** `DRIVERS[language]`: a `KeyError` for a language with no driver. */
  function LookupDriver(language: string): (r: Result<Driver>)
    ensures r.Ok? <==> language in VALID_LANGUAGES
    ensures r.Ok? ==> r.value.Language() == language
    ensures r.Err? ==> r.error == KeyError(language)
  {
    DriversTable();
    if language in DRIVERS then Ok(DRIVERS[language]) else Err(KeyError(language))
  }

  /** `aoc_builder_from_args`: the driver is looked up first, then the puzzle
      is built from the date and the session token. The `scaffold`,
      `compile` and `run` commands take no session option, so `session` is
      `None` for them. */
  function AocBuilderFromArgs(language: string, year: int, day: int, session: Option<string>, outputDir: Path, env: Env)
    : (r: Result<AoCBuilder>)
    ensures language !in VALID_LANGUAGES ==> r == Err(KeyError(language))
    ensures language in VALID_LANGUAGES ==>
      (r.Ok? <==> PuzzleFromArgs(year, day, session, env).Ok?)
    ensures language in VALID_LANGUAGES && r.Err? ==> r.error == PuzzleFromArgs(year, day, session, env).error
    ensures r.Ok? ==>
      && r.value.driver.Language() == language
      && r.value.puzzle == Puzzle(year, day, SessionToken(session, env).value)
      && r.value.outputDir == outputDir
  {
    var driver :- LookupDriver(language);
    var puzzle :- PuzzleFromArgs(year, day, session, env);
    Ok(AoCBuilder(driver, puzzle, outputDir))
  }
}

=== FILE: run_cmd.dfy ===
/** `aoctool/commands/run.py`: the `--part` choice, and the choice between
    submitting and running a part. */
module RunCommand {
  import opened Outcomes
  import opened Paths
  import opened Utils
  import opened Builder
  import opened Registry

  /** What `run` asks the builder to do. */
  datatype Action = Submit | RunPart(part: Option<int>)

  /** The `--part` option: `choices = (1, 2)`; any other value is refused
      while the command line is parsed. */
  function PartChoice(part: Option<int>): (r: Result<Option<int>>)
    ensures r.Ok? <==> part.None? || part.value == 1 || part.value == 2
    ensures r.Ok? ==> r.value == part
    ensures r.Err? ==> r.error.ValueError?
  {
    if part.Some? && part.value != 1 && part.value != 2 then Err(ValueError("argument --part: invalid choice"))
    else Ok(part)
  }

  /** The branch of `run`: with `--submit` a part must not be given and the
      solution is submitted; without it the requested part (or the default
      when none is given) is run. */
  function Dispatch(part: Option<int>, submit: bool): (r: Result<Action>)
    ensures r.Err? <==> submit && part.Some?
    ensures r.Err? ==> r.error == ValueError("Cannot specify --part when submitting")
    ensures r.Ok? ==> (r.value == Submit <==> submit)
    ensures r.Ok? && !submit ==> r.value.part == part
  {
    if submit then
      if part.Some? then Err(ValueError("Cannot specify --part when submitting")) else Ok(Submit)
    else Ok(RunPart(part))
  }

  /** The command: the part is checked while parsing, then the builder is made
      from the arguments (the command takes no session option), then the
      branch is chosen. */
  function RunSpec(language: string, year: int, day: int, outputDir: Path, part: Option<int>, submit: bool, env: Env)
    : (r: Result<(AoCBuilder, Action)>)
    ensures part.Some? && part.value != 1 && part.value != 2 ==> r.Err? && r.error.ValueError?
    ensures PartChoice(part).Ok? && language !in VALID_LANGUAGES ==> r == Err(KeyError(language))
    ensures r.Ok? ==> r.value.0.driver.Language() == language
    ensures r.Ok? ==> (r.value.1 == Submit <==> submit)
    ensures r.Ok? && r.value.1.RunPart? && r.value.1.part.Some? ==> r.value.1.part.value in {1, 2}
  {
    var checked :- PartChoice(part);
    var b :- AocBuilderFromArgs(language, year, day, None, outputDir, env);
    var action :- Dispatch(checked, submit);
    Ok((b, action))
  }
}

=== FILE: rust.dfy ===
/** `aoctool/drivers/rust.py`: the `Cargo.toml` manifest written beside the
    source file, the `cargo build` invocation, and where the release
    executable lands. */
module RustDriver {
  import opened Outcomes
  import opened Paths
  import opened Drivers
  import opened FileSystem

  /** The `[package]` table. */
  datatype Package = Package(name: string, version: string)

  /** One entry of the `[[bin]]` array. */
  datatype BinTarget = BinTarget(name: string, path: string)

  /** The manifest document handed to `toml.dump`. */
  datatype CargoManifest = CargoManifest(package: Package, bin: seq<BinTarget>, dependencies: map<string, string>)

  /** The class constants of `RustDriver`. */
  lemma Constants()
    ensures Rust.Language() == "rust" && Rust.FileExtension() == "rs"
  {
  }

  /** `scaffold_dir / 'Cargo.toml'`. */
  function ManifestPath(scaffoldDir: Path): (p: Path)
    ensures Parent(p) == scaffoldDir && FileName(p) == "Cargo.toml"
  {
    Child(scaffoldDir, "Cargo.toml")
  }

  /** `get_exec_path`: `build_dir / 'release' / src_path.stem`. */
  function ExecPath(src: Path, buildDir: Path): (p: Path)
    ensures Parent(Parent(p)) == buildDir && FileName(Parent(p)) == "release"
    ensures FileName(p) == Stem(FileName(src))
  {
    Child(Child(buildDir, "release"), Stem(FileName(src)))
  }

  /** The manifest of `make_scaffold`: package "aoc_<stem>" at version 0.1.0,
      one binary named after the source file's stem whose path is the source
      file relative to the scaffold directory, and no dependencies. The source
      file outside the scaffold directory raises `ValueError`. */
  function Manifest(scaffoldDir: Path, src: Path): (r: Result<CargoManifest>)
    ensures r.Ok? <==> |scaffoldDir| <= |src| && src[..|scaffoldDir|] == scaffoldDir
    ensures r.Err? ==> r.error.ValueError?
    ensures r.Ok? ==>
      && r.value.package == Package("aoc_" + Stem(FileName(src)), "0.1.0")
      && |r.value.bin| == 1
      && r.value.bin[0].name == Stem(FileName(src))
      && scaffoldDir + src[|scaffoldDir|..] == src
      && r.value.bin[0].path == PathStr(src[|scaffoldDir|..])
      && r.value.dependencies == map[]
  {
    var stem := Stem(FileName(src));
    var rel :- RelativeTo(src, scaffoldDir);
    Ok(CargoManifest(Package("aoc_" + stem, "0.1.0"), [BinTarget(stem, PathStr(rel))], map[]))
  }

  /** The binary the manifest declares is the executable `get_exec_path`
      names, whatever the build directory, and the package name is that
      binary's name after "aoc_". */
  lemma ManifestNamesExecutable(scaffoldDir: Path, src: Path, buildDir: Path)
    requires Manifest(scaffoldDir, src).Ok?
    ensures var m := Manifest(scaffoldDir, src).value;
      && m.bin[0].name == FileName(ExecPath(src, buildDir))
      && m.package.name == "aoc_" + FileName(ExecPath(src, buildDir))
  {
  }

  /** The source file sits directly in the scaffold directory, so the binary's
      path is the bare file name. */
  lemma ManifestPathOfScaffold(scaffoldDir: Path, name: string)
    ensures Manifest(scaffoldDir, Child(scaffoldDir, name)).Ok?
    ensures Manifest(scaffoldDir, Child(scaffoldDir, name)).value.bin[0].path == name
  {
    var src := Child(scaffoldDir, name);
    assert src[|scaffoldDir|..] == [name];
  }

  /** `make_scaffold` after the source file exists: builds the manifest and
      writes it, serialised by `dump` (`toml.dump`), to `Cargo.toml`. */
  function MakeScaffoldSpec(st: FsState, scaffoldDir: Path, src: Path, dump: CargoManifest -> string): (r: (Outcome, FsState))
    requires st.Valid()
    ensures r.1.Valid()
    ensures Manifest(scaffoldDir, src).Err? ==> r == (Fail(Manifest(scaffoldDir, src).error), st)
    ensures r.0 == Pass <==>
      Manifest(scaffoldDir, src).Ok? && ManifestPath(scaffoldDir) !in st.dirs && st.IsDir(scaffoldDir)
    ensures r.0 == Pass ==>
      r.1 == FsState(st.dirs, st.files[ManifestPath(scaffoldDir) := dump(Manifest(scaffoldDir, src).value)])
  {
    match Manifest(scaffoldDir, src)
    case Err(e) => (Fail(e), st)
    case Ok(m) => WriteText(st, ManifestPath(scaffoldDir), dump(m))
  }

  /** The manifest step of `make_scaffold`, applied in place. */
  method MakeScaffold(fs: FileSystem, scaffoldDir: Path, src: Path, dump: CargoManifest -> string) returns (r: Outcome)
    requires fs.State().Valid()
    modifies fs
    ensures (r, fs.State()) == MakeScaffoldSpec(old(fs.State()), scaffoldDir, src, dump)
  {
    var manifest := Manifest(scaffoldDir, src);
    if manifest.Err? {
      return Fail(manifest.error);
    }
    r := fs.Write(ManifestPath(scaffoldDir), dump(manifest.value));
  }

  /** `compile_source(scaffold_dir, src_path, build_dir)`: `cargo build
      --release` on the scaffold's manifest, with the build directory as the
      target directory, run in the current directory. */
  function CompileSource(scaffoldDir: Path, src: Path, buildDir: Path): (inv: Invocation)
    ensures inv.cwd == None
    ensures |inv.argv| == 7 && inv.argv[..3] == ["cargo", "build", "--release"]
    ensures ArgAfter(inv.argv, "--manifest-path") == Some(PathStr(ManifestPath(scaffoldDir)))
    ensures ArgAfter(inv.argv, "--target-dir") == Some(PathStr(buildDir))
  {
    var m := PathStr(ManifestPath(scaffoldDir));
    var argv := ["cargo", "build", "--release", "--manifest-path", m, "--target-dir", PathStr(buildDir)];
    assert m[|m| - 1] == 'l';
    assert "--target-dir"[11] == 'r';
    ArgAfterAt(argv, "--manifest-path", 3);
    ArgAfterAt(argv, "--target-dir", 5);
    Invocation(argv, None)
  }

  /** `cargo build` reads the manifest `make_scaffold` writes and builds into
      the build directory, under whose `release` subdirectory `get_exec_path`
      looks. */
  lemma CargoBuildArguments(scaffoldDir: Path, src: Path, buildDir: Path)
    ensures var inv := CompileSource(scaffoldDir, src, buildDir);
      Parent(Parent(ExecPath(src, buildDir))) == buildDir
      && ArgAfter(inv.argv, "--target-dir") == Some(PathStr(buildDir))
      && ArgAfter(inv.argv, "--manifest-path") == Some(PathStr(ManifestPath(scaffoldDir)))
  {
  }
}

=== FILE: scaffold_cmd.dfy ===
/** `aoctool/commands/scaffold.py`: create the language directory when it is
    missing, refuse to overwrite an existing scaffold unless forced, and
    render the scaffold. */
module ScaffoldCommand {
  import opened Outcomes
  import opened Paths
  import opened Utils
  import opened Drivers
  import opened FileSystem
  import opened Builder
  import opened Registry

  /** The message of the `ValueError` raised on an existing scaffold. */
  function RefusalMessage(scaffold: Path): (m: string)
    ensures var prefix, ps := "Refusing to overwrite scaffold file ", PathStr(scaffold);
      && |m| > |prefix| + |ps| && m[..|prefix|] == prefix
      && m[|prefix|..|prefix| + |ps|] == ps
      && m[|prefix| + |ps|..] == " (to do so, use --force)"
  {
    var prefix, ps, suffix := "Refusing to overwrite scaffold file ", PathStr(scaffold), " (to do so, use --force)";
    var m := prefix + ps + suffix;
    assert m[..|prefix|] == prefix;
    assert m[|prefix|..|prefix| + |ps|] == ps;
    assert m[|prefix| + |ps|..] == suffix;
    m
  }

  /** The body of `run` once the builder exists; `text` is the rendered scaffold. */
  function ScaffoldSpec(st: FsState, b: AoCBuilder, force: bool, text: string): (r: (Outcome, FsState))
    requires st.Valid()
    ensures r.1.Valid()
  {
    var (r1, st1) := if !st.Exists(b.LanguageDir()) then MakeDirs(st, b.LanguageDir()) else (Pass, st);
    if r1 != Pass then (r1, st1)
    else if st1.Exists(b.ScaffoldPath()) && !force then (Fail(ValueError(RefusalMessage(b.ScaffoldPath()))), st1)
    else WriteText(st1, b.ScaffoldPath(), text)
  }

  /** Everything above the scaffold path is the language directory or above it. */
  lemma ScaffoldAbove(b: AoCBuilder)
    ensures Parent(b.ScaffoldPath()) == b.LanguageDir()
    ensures |b.LanguageDir()| >= 1 && |b.ScaffoldPath()| == |b.LanguageDir()| + 1
    ensures b.ScaffoldPath()[..|b.LanguageDir()|] == b.LanguageDir()
  {
  }

  /** An existing scaffold without `--force` is refused, and nothing on disk
      changes: its language directory exists already, so none is created. */
  lemma ScaffoldRefuses(st: FsState, b: AoCBuilder, text: string)
    requires st.Valid() && st.Exists(b.ScaffoldPath())
    ensures ScaffoldSpec(st, b, false, text) == (Fail(ValueError(RefusalMessage(b.ScaffoldPath()))), st)
  {
    ScaffoldAbove(b);
    var sp, ld := b.ScaffoldPath(), b.LanguageDir();
    assert sp[..|ld|] in st.dirs;
  }

  /** Creating a directory when nothing is at its path fails exactly when a
      file is above it; only the missing directories are added. A directory
      that exists has no file above it. */
  lemma EnsureDir(st: FsState, ld: Path)
    requires st.Valid()
    ensures st.IsDir(ld) ==> !st.AncestorIsFile(ld)
    ensures var (r1, st1) := if !st.Exists(ld) then MakeDirs(st, ld) else (Pass, st);
      && (r1 == Pass <==> st.Exists(ld) || !st.AncestorIsFile(ld))
      && (r1 == Pass ==> && st1.files == st.files && (st1.IsDir(ld) <==> !st.IsFile(ld))
                         && st1.dirs == st.dirs + (if st.Exists(ld) then {} else Prefixes(ld)))
      && (r1 != Pass ==> st1 == st)
  {
    if st.IsDir(ld) {
      assert !st.AncestorIsFile(ld) by {
        forall k | 1 <= k < |ld| ensures ld[..k] !in st.files {
          assert ld[..k] in st.dirs;
        }
      }
    }
    assert st.dirs + {} == st.dirs;
  }

  /** When there is no scaffold yet, or `--force` is given, the scaffold is
      written exactly when nothing is in the way: no file at or above the
      language directory and no directory at the scaffold path. Afterwards the
      language directory exists, the scaffold holds the rendered text, no
      other file changes, and directories are created (the language directory
      and those above it) only when the language directory was missing. A failure
      leaves the disk as it was. */
  lemma ScaffoldWrites(st: FsState, b: AoCBuilder, force: bool, text: string)
    requires st.Valid() && (force || !st.Exists(b.ScaffoldPath()))
    ensures var r := ScaffoldSpec(st, b, force, text);
      && (r.0 == Pass <==>
           !st.IsFile(b.LanguageDir()) && !st.AncestorIsFile(b.LanguageDir()) && b.ScaffoldPath() !in st.dirs)
      && (r.0 == Pass ==>
           && r.1.IsDir(b.LanguageDir())
           && r.1.files == st.files[b.ScaffoldPath() := text]
           && r.1.dirs == st.dirs + (if st.IsDir(b.LanguageDir()) then {} else Prefixes(b.LanguageDir())))
      && (r.0 != Pass ==> r.1 == st)
  {
    ScaffoldAbove(b);
    EnsureDir(st, b.LanguageDir());
    var sp, ld := b.ScaffoldPath(), b.LanguageDir();
    if !st.Exists(ld) {
      assert sp !in st.files && sp !in st.dirs;
      assert sp !in Prefixes(ld);
    }
  }

  /** `run`: builds the builder from the arguments (no session option, so
      the default session key is used), then scaffolds. */
  function RunSpec(st: FsState, language: string, year: int, day: int, outputDir: Path, force: bool, env: Env,
                   render: (Path, TemplateVars) -> string, resolve: Path -> string): (r: (Outcome, FsState))
    requires st.Valid()
    ensures r.1.Valid()
    ensures language !in VALID_LANGUAGES ==> r == (Fail(KeyError(language)), st)
    ensures var rb := AocBuilderFromArgs(language, year, day, None, outputDir, env);
      && (rb.Err? ==> r == (Fail(rb.error), st))
      && (rb.Ok? ==> r == ScaffoldSpec(st, rb.value, force, ScaffoldText(rb.value, render, resolve)))
  {
    match AocBuilderFromArgs(language, year, day, None, outputDir, env)
    case Err(e) => (Fail(e), st)
    case Ok(b) => ScaffoldSpec(st, b, force, ScaffoldText(b, render, resolve))
  }

  /** `run`, applied in place. */
  method Run(fs: FileSystem, language: string, year: int, day: int, outputDir: Path, force: bool, env: Env,
             render: (Path, TemplateVars) -> string, resolve: Path -> string) returns (r: Outcome)
    requires fs.State().Valid()
    modifies fs
    ensures (r, fs.State()) == RunSpec(old(fs.State()), language, year, day, outputDir, force, env, render, resolve)
  {
    var built := AocBuilderFromArgs(language, year, day, None, outputDir, env);
    if built.Err? {
      return Fail(built.error);
    }
    var b := built.value;
    var present := fs.Exists(b.LanguageDir());
    if !present {
      r := fs.MakeDirectory(b.LanguageDir());
      if r != Pass {
        return;
      }
    }
    var taken := fs.Exists(b.ScaffoldPath());
    if taken && !force {
      return Fail(ValueError(RefusalMessage(b.ScaffoldPath())));
    }
    r := DoScaffold(fs, b, render, resolve);
  }
}

=== FILE: text.dfy ===
/** The string operations the tool relies on: decimal formatting (`f'{n}'`,
    `f'{n:02d}'`), `str.capitalize`, `str.strip`, `str.startswith`,
    `str.replace` of a character by nothing, and reading a text file line by line. */
module Text {

  // ---------------------------------------------------------------- decimal

  predicate IsDigit(c: char) { '0' <= c <= '9' }

  function DigitChar(d: nat): (c: char)
    requires d < 10
    ensures IsDigit(c) && c as int - '0' as int == d
  {
    ['0', '1', '2', '3', '4', '5', '6', '7', '8', '9'][d]
  }

  /** `f'{n}'` for a non-negative integer: its decimal digits, no leading zero. */
  function NatToString(n: nat): (s: string)
    ensures |s| >= 1
    ensures forall i :: 0 <= i < |s| ==> IsDigit(s[i])
    ensures |s| > 1 ==> s[0] != '0'
    ensures n < 10 <==> |s| == 1
  {
    if n < 10 then [DigitChar(n)] else NatToString(n / 10) + [DigitChar(n % 10)]
  }

  /** The number a string of decimal digits denotes (the inverse of `NatToString`). */
  function DigitsValue(s: string): nat
    requires forall i :: 0 <= i < |s| ==> IsDigit(s[i])
  {
    if s == [] then 0
    else
      assert IsDigit(s[|s| - 1]);
      DigitsValue(s[..|s| - 1]) * 10 + (s[|s| - 1] as int - '0' as int)
  }

  lemma {:induction false} NatToStringRoundTrip(n: nat)
    ensures DigitsValue(NatToString(n)) == n
  {
    if n >= 10 {
      var s := NatToString(n);
      assert s[..|s| - 1] == NatToString(n / 10);
      NatToStringRoundTrip(n / 10);
    }
  }

  lemma NatToStringInjective(a: nat, b: nat)
    requires NatToString(a) == NatToString(b)
    ensures a == b
  {
    NatToStringRoundTrip(a);
    NatToStringRoundTrip(b);
  }

  /** `f'{i}'` for any integer: a minus sign before the digits of a negative one. */
  function IntToString(i: int): (s: string)
  {
    if i < 0 then "-" + NatToString(-i) else NatToString(i)
  }

  /** Different integers print differently. */
  lemma IntToStringInjective(a: int, b: int)
    requires IntToString(a) == IntToString(b)
    ensures a == b
  {
    var s := IntToString(a);
    if a < 0 {
      assert b < 0;
      assert NatToString(-a) == s[1..] == NatToString(-b);
      NatToStringInjective(-a, -b);
    } else {
      assert b >= 0;
      NatToStringInjective(a, b);
    }
  }

  /** `f'{d:02d}'`: zero-padded to width two after the sign; wider values are unchanged. */
  function Pad2(d: int): (s: string)
  {
    if 0 <= d < 10 then ['0', DigitChar(d)] else IntToString(d)
  }

  /** For 0 <= d < 100 the padded form is exactly two digits and denotes d. */
  lemma Pad2TwoDigits(d: int)
    requires 0 <= d < 100
    ensures |Pad2(d)| == 2
    ensures IsDigit(Pad2(d)[0]) && IsDigit(Pad2(d)[1])
    ensures DigitsValue(Pad2(d)) == d
  {
    var s := Pad2(d);
    if d < 10 {
      assert s[..1] == ['0'] && s[..1][..0] == [];
      assert DigitsValue(s[..1]) == 0;
    } else {
      assert NatToString(d) == NatToString(d / 10) + [DigitChar(d % 10)];
      NatToStringRoundTrip(d);
    }
  }

  // ---------------------------------------------------------------- case

  function ToUpper(c: char): char
  {
    if 'a' <= c <= 'z' then (c as int - 'a' as int + 'A' as int) as char else c
  }

  function ToLower(c: char): char
  {
    if 'A' <= c <= 'Z' then (c as int - 'A' as int + 'a' as int) as char else c
  }

  function Lower(s: string): (r: string)
    ensures |r| == |s| && forall i :: 0 <= i < |s| ==> r[i] == ToLower(s[i])
  {
    if s == [] then [] else [ToLower(s[0])] + Lower(s[1..])
  }

  /** `str.capitalize` on ASCII text: the first character upper-case, every other lower-case. */
  function Capitalize(s: string): (r: string)
    ensures |r| == |s|
    ensures |s| > 0 ==> r[0] == ToUpper(s[0]) && !('a' <= r[0] <= 'z')
    ensures forall i :: 1 <= i < |s| ==> r[i] == ToLower(s[i]) && !('A' <= r[i] <= 'Z')
  {
    if s == [] then [] else [ToUpper(s[0])] + Lower(s[1..])
  }

  // ---------------------------------------------------------------- strip

  /** `str.isspace` on one character, which is what `str.strip()` removes:
      the ASCII controls 9-13 and 28-31, the space, and the Unicode spaces and
      separators (U+0085, U+00A0, U+1680, U+2000-U+200A, U+2028, U+2029,
      U+202F, U+205F, U+3000). */
  predicate IsSpace(c: char)
  {
    var n := c as int;
    || 9 <= n <= 13 || 28 <= n <= 32 || n == 0x85 || n == 0xA0 || n == 0x1680
    || 0x2000 <= n <= 0x200A || n == 0x2028 || n == 0x2029 || n == 0x202F || n == 0x205F || n == 0x3000
  }

  function StripLeft(s: string): (r: string)
    ensures |r| <= |s| && r == s[|s| - |r|..]
    ensures forall i :: 0 <= i < |s| - |r| ==> IsSpace(s[i])
    ensures r != [] ==> !IsSpace(r[0])
  {
    if s != [] && IsSpace(s[0]) then StripLeft(s[1..]) else s
  }

  function StripRight(s: string): (r: string)
    ensures |r| <= |s| && r == s[..|r|]
    ensures forall i :: |r| <= i < |s| ==> IsSpace(s[i])
    ensures r != [] ==> !IsSpace(r[|r| - 1])
  {
    if s != [] && IsSpace(s[|s| - 1]) then StripRight(s[..|s| - 1]) else s
  }

  /** `str.strip()`: the longest slice of `s` that neither starts nor ends with white space. */
  function Strip(s: string): (r: string)
    ensures exists i, j ::
      && 0 <= i <= j <= |s| && r == s[i..j]
      && (forall k :: 0 <= k < i ==> IsSpace(s[k]))
      && (forall k :: j <= k < |s| ==> IsSpace(s[k]))
    ensures r != [] ==> !IsSpace(r[0]) && !IsSpace(r[|r| - 1])
  {
    var left := StripLeft(s);
    var r := StripRight(left);
    var i := |s| - |left|;
    assert r == s[i..i + |r|];
    r
  }

  /** A string that neither starts nor ends with white space is already stripped. */
  lemma StripUnchanged(s: string)
    requires s != [] ==> !IsSpace(s[0]) && !IsSpace(s[|s| - 1])
    ensures Strip(s) == s
  {
  }

  // ---------------------------------------------------------------- filters

  predicate StartsWith(s: string, prefix: string)
  {
    |prefix| <= |s| && s[..|prefix|] == prefix
  }

  /** `s.replace(c, '')`: `s` with every occurrence of `c` removed. */
  function RemoveAll(s: string, c: char): string
  {
    if s == [] then [] else (if s[0] == c then [] else [s[0]]) + RemoveAll(s[1..], c)
  }

  /** The number of occurrences of `c` in `s` (`s.count(c)`). */
  function Count(s: string, c: char): nat
  {
    if s == [] then 0 else (if s[0] == c then 1 else 0) + Count(s[1..], c)
  }

  /** Removing a character leaves no occurrence of it, keeps the count of
      every other character, and shortens the string by its count; that the
      kept characters stay in order is `RemoveAllAppend`. */
  lemma {:induction false} RemoveAllSpec(s: string, c: char)
    ensures c !in RemoveAll(s, c)
    ensures |RemoveAll(s, c)| == |s| - Count(s, c)
    ensures forall d :: d != c ==> Count(RemoveAll(s, c), d) == Count(s, d)
  {
    if s != [] {
      RemoveAllSpec(s[1..], c);
      var head := if s[0] == c then [] else [s[0]];
      forall d | d != c
        ensures Count(RemoveAll(s, c), d) == Count(s, d)
      {
        CountAppend(head, RemoveAll(s[1..], c), d);
      }
    }
  }

  /** A single character is dropped exactly when it is `c`; with
      `RemoveAllAppend` this fixes the result, in the original order. */
  lemma RemoveAllChar(x: char, c: char)
    ensures RemoveAll([x], c) == if x == c then [] else [x]
  {
    assert [x][1..] == [];
  }

  /** Removing a character from a concatenation removes it from each part. */
  lemma {:induction false} RemoveAllAppend(a: string, b: string, c: char)
    ensures RemoveAll(a + b, c) == RemoveAll(a, c) + RemoveAll(b, c)
  {
    if a != [] {
      assert (a + b)[1..] == a[1..] + b;
      RemoveAllAppend(a[1..], b, c);
    } else {
      assert a + b == b;
    }
  }

  /** Removing a separator that occurs only between two parts joins the parts. */
  lemma RemoveSeparator(a: string, b: string, c: char)
    requires c !in a && c !in b
    ensures RemoveAll(a + [c] + b, c) == a + b
  {
    RemoveTrailing(a, c);
    RemoveAllAppend(a + [c], b, c);
    RemoveAllAbsent(b, c);
  }

  lemma RemoveTrailing(a: string, c: char)
    requires c !in a
    ensures RemoveAll(a + [c], c) == a
  {
    RemoveAllAppend(a, [c], c);
    RemoveAllAbsent(a, c);
    assert RemoveAll([c], c) == [] + RemoveAll([], c);
  }

  /** Printed integers hold only digits and a minus sign. */
  lemma IntToStringChars(i: int)
    ensures forall k :: 0 <= k < |IntToString(i)| ==> IntToString(i)[k] == '-' || IsDigit(IntToString(i)[k])
    ensures forall k :: 0 <= k < |Pad2(i)| ==> Pad2(i)[k] == '-' || IsDigit(Pad2(i)[k])
  {
  }

  /** Removing a character that does not occur changes nothing. */
  lemma {:induction false} RemoveAllAbsent(s: string, c: char)
    requires c !in s
    ensures RemoveAll(s, c) == s
  {
    if s != [] {
      assert c !in s[1..];
      RemoveAllAbsent(s[1..], c);
      assert [s[0]] + s[1..] == s;
    }
  }

  lemma {:induction false} CountAppend(a: string, b: string, d: char)
    ensures Count(a + b, d) == Count(a, d) + Count(b, d)
  {
    if a != [] {
      assert (a + b)[1..] == a[1..] + b;
      CountAppend(a[1..], b, d);
    } else {
      assert a + b == b;
    }
  }

  // ---------------------------------------------------------------- lines

  /** The index of the first newline in `s`, or |s| when there is none. */
  function NewlineIndex(s: string): (k: nat)
    ensures k <= |s| && '\n' !in s[..k]
    ensures k < |s| ==> s[k] == '\n'
  {
    if s == [] then 0 else if s[0] == '\n' then 0 else 1 + NewlineIndex(s[1..])
  }

  /** Iterating over a text file: each line keeps its newline; the last may lack one. */
  function Lines(t: string): seq<string>
    decreases |t|
  {
    if t == [] then []
    else
      var k := NewlineIndex(t);
      if k == |t| then [t] else [t[..k + 1]] + Lines(t[k + 1..])
  }

  /** `''.join(lines)`. */
  function Concat(ls: seq<string>): string
  {
    if ls == [] then [] else ls[0] + Concat(ls[1..])
  }

  /** A line as iteration yields it: non-empty, and a newline at most at its end. */
  predicate IsLine(l: string)
  {
    l != [] && '\n' !in l[..|l| - 1]
  }

  /** A sequence of lines as iteration over a text yields it: only the last may lack its newline. */
  predicate WellFormedLines(ls: seq<string>)
  {
    (forall i :: 0 <= i < |ls| ==> IsLine(ls[i])) &&
    (forall i :: 0 <= i < |ls| - 1 ==> ls[i][|ls[i]| - 1] == '\n')
  }

  lemma ConcatCons(l: string, rest: seq<string>)
    ensures Concat([l] + rest) == l + Concat(rest)
  {
    assert ([l] + rest)[1..] == rest;
  }

  lemma ConsWellFormed(l: string, rest: seq<string>)
    requires IsLine(l) && l[|l| - 1] == '\n' && WellFormedLines(rest)
    ensures WellFormedLines([l] + rest)
  {
    var ls := [l] + rest;
    forall i | 1 <= i < |ls| ensures ls[i] == rest[i - 1] { }
  }

  lemma TailWellFormed(ls: seq<string>)
    requires ls != [] && WellFormedLines(ls)
    ensures WellFormedLines(ls[1..])
  {
    forall i | 0 <= i < |ls| - 1 ensures ls[1..][i] == ls[i + 1] { }
  }

  /** The first line of a text that holds a newline ends at that newline. */
  lemma LinesStep(t: string, k: nat)
    requires t != [] && k == NewlineIndex(t) && k < |t|
    ensures Lines(t) == [t[..k + 1]] + Lines(t[k + 1..])
  {
    assert k != |t|;
  }

  lemma FirstLine(t: string, k: nat)
    requires k == NewlineIndex(t) && k < |t|
    ensures IsLine(t[..k + 1]) && t[..k + 1][k] == '\n'
  {
    assert t[..k + 1][..k] == t[..k];
  }

  /** Splitting into lines loses nothing, and yields well-formed lines. */
  lemma {:induction false} LinesConcat(t: string)
    ensures Concat(Lines(t)) == t
    ensures WellFormedLines(Lines(t))
    decreases |t|
  {
    if t != [] {
      var k := NewlineIndex(t);
      if k < |t| {
        var l, tail := t[..k + 1], t[k + 1..];
        LinesStep(t, k);
        FirstLine(t, k);
        LinesConcat(tail);
        ConcatCons(l, Lines(tail));
        ConsWellFormed(l, Lines(tail));
        assert t == l + tail;
      } else {
        LastLine(t);
      }
    }
  }

  /** A text without a newline is one line, the last, lacking its newline. */
  lemma LastLine(t: string)
    requires t != [] && NewlineIndex(t) == |t|
    ensures Lines(t) == [t] && Concat([t]) == t && WellFormedLines([t])
  {
    assert Lines(t) == [t];
    ConcatCons(t, []);
    assert [t] + [] == [t];
    assert t[..|t|] == t;
  }

  /** Joining well-formed lines and splitting again gives back the same lines. */
  lemma {:induction false} ConcatLines(ls: seq<string>)
    requires WellFormedLines(ls)
    ensures Lines(Concat(ls)) == ls
  {
    if ls != [] {
      var l, rest := ls[0], ls[1..];
      assert ls == [l] + rest;
      var t := Concat(ls);
      ConcatCons(l, rest);
      assert t == l + Concat(rest);
      TailWellFormed(ls);
      ConcatLines(rest);
      assert t[..|l| - 1] == l[..|l| - 1];
      if l[|l| - 1] == '\n' {
        assert t[|l| - 1] == '\n';
        NewlineIndexAt(t, |l| - 1);
        assert t[..|l|] == l;
        assert t[|l|..] == Concat(rest);
      } else {
        assert rest == [];
        assert Concat(rest) == [];
        assert t == l;
        assert l == l[..|l| - 1] + [l[|l| - 1]];
        assert '\n' !in t;
        NoNewline(t);
      }
    }
  }

  lemma NewlineIndexAt(s: string, k: nat)
    requires k < |s| && s[k] == '\n' && '\n' !in s[..k]
    ensures NewlineIndex(s) == k
  {
  }

  lemma NoNewline(s: string)
    requires '\n' !in s
    ensures NewlineIndex(s) == |s|
  {
  }
}

=== FILE: utils.dfy ===
/** Puzzle identity and the helper rules of `aoctool/utils.py`: the puzzle's
    name and date string, the current part, the session-key check, the
    range check on the command-line date, and `command2str`. */
module Utils {
  import opened Outcomes
  import opened Text
  import opened Paths

  const START_YEAR: int := 2015

  /** The languages the command line accepts for `--language`, in order. */
  const VALID_LANGUAGES: seq<string> := ["haskell", "python", "rust"]

  /** What the process environment supplies: the `AOC_SESSION` variable, the
      home directory, the contents of the session dotfile there (None when the
      file does not exist) and the current year. */
  datatype Env = Env(aocSession: Option<string>, home: Path, sessionFile: Option<string>, nowYear: int)

  /** A puzzle of the site: its year and day, and the session token of the
      user on whose behalf it is fetched. */
  datatype Puzzle = Puzzle(year: int, day: int, token: string)

  predicate ValidDay(day: int) { 1 <= day <= 25 }

  // ---------------------------------------------------------------- naming

  /** `Puzzle.name`: the year, an underscore, and the day as `{day:02d}`. */
  function Name(p: Puzzle): (r: string)
    ensures var ys := IntToString(p.year);
      && |r| > |ys| && r[..|ys|] == ys && r[|ys|] == '_'
      && '_' !in ys && '_' !in r[|ys| + 1..]
  {
    var ys := IntToString(p.year);
    IntToStringChars(p.year);
    IntToStringChars(p.day);
    var r := ys + "_" + Pad2(p.day);
    assert r[|ys| + 1..] == Pad2(p.day);
    r
  }

  /** `Puzzle.date_string`: the year, "-12-", and the day as `{day:02d}`. */
  function DateString(p: Puzzle): (r: string)
    ensures var ys := IntToString(p.year);
      && |r| > |ys| + 4 && r[..|ys|] == ys && r[|ys|..|ys| + 4] == "-12-"
      && forall k :: |ys| + 4 <= k < |r| ==> r[k] == '-' || IsDigit(r[k])
  {
    var ys := IntToString(p.year);
    IntToStringChars(p.day);
    var r := ys + "-12-" + Pad2(p.day);
    assert forall k :: |ys| + 4 <= k < |r| ==> r[k] == Pad2(p.day)[k - |ys| - 4];
    r
  }

  /** For a valid day the name is the decimal year, one underscore, and
      exactly two digits that denote the day. */
  lemma NameFormat(p: Puzzle)
    requires ValidDay(p.day)
    ensures var ys, n := IntToString(p.year), Name(p);
      && |n| == |ys| + 3
      && n[..|ys|] == ys
      && n[|ys|] == '_'
      && IsDigit(n[|ys| + 1]) && IsDigit(n[|ys| + 2])
      && DigitsValue(n[|ys| + 1..]) == p.day
  {
    var ys, n := IntToString(p.year), Name(p);
    Pad2TwoDigits(p.day);
    assert n[|ys| + 1..] == Pad2(p.day);
  }

  /** On valid days, two puzzles have the same name exactly when they have
      the same year and day: the name identifies the puzzle directory. */
  lemma NameInjective(p: Puzzle, q: Puzzle)
    requires ValidDay(p.day) && ValidDay(q.day)
    ensures Name(p) == Name(q) <==> p.year == q.year && p.day == q.day
  {
    if Name(p) == Name(q) {
      NameFormat(p);
      NameFormat(q);
      var yp, yq := IntToString(p.year), IntToString(q.year);
      assert |yp| == |yq|;
      assert yp == Name(p)[..|yp|] == yq;
      IntToStringInjective(p.year, q.year);
    }
  }

  /** For a valid day the date string is the decimal year, "-12-", and two
      digits that denote the day; different (year, day) give different strings. */
  lemma DateStringFormat(p: Puzzle, q: Puzzle)
    requires ValidDay(p.day) && ValidDay(q.day)
    ensures var ys, d := IntToString(p.year), DateString(p);
      && |d| == |ys| + 6
      && d[..|ys|] == ys
      && d[|ys|..|ys| + 4] == "-12-"
      && DigitsValue(d[|ys| + 4..]) == p.day
    ensures DateString(p) == DateString(q) <==> p.year == q.year && p.day == q.day
  {
    var yp, yq := IntToString(p.year), IntToString(q.year);
    var dp, dq := DateString(p), DateString(q);
    Pad2TwoDigits(p.day);
    Pad2TwoDigits(q.day);
    assert dp[|yp| + 4..] == Pad2(p.day);
    assert dq[|yq| + 4..] == Pad2(q.day);
    if dp == dq {
      assert |yp| == |yq|;
      assert yp == dp[..|yp|] == yq;
      IntToStringInjective(p.year, q.year);
    }
  }

  /** `Puzzle.current_part`, given whether part 1 has been answered. */
  function CurrentPart(answeredA: bool): (part: int)
    ensures part == 1 || part == 2
    ensures part == 2 <==> answeredA
  {
    if answeredA then 2 else 1
  }

  // ---------------------------------------------------------------- session

  /** `string.hexdigits`. */
  const HEX_DIGITS: string := "0123456789abcdefABCDEF"

  /** The key check of `get_default_session_cookie`: exactly 128 characters,
      each a decimal digit or a letter a-f in either case. */
  predicate ValidSessionKey(key: string): (ok: bool)
    ensures ok <==> |key| == 128 && forall i :: 0 <= i < |key| ==>
      IsDigit(key[i]) || 'a' <= key[i] <= 'f' || 'A' <= key[i] <= 'F'
  {
    |key| == 128 && forall i :: 0 <= i < |key| ==> key[i] in HEX_DIGITS
  }

  /** A valid key has no blank at either end, so stripping the dotfile's
      contents cannot be what makes or breaks a key that is already valid. */
  lemma ValidSessionKeyStripped(key: string)
    requires ValidSessionKey(key)
    ensures Strip(key) == key
  {
    HexDigitsNotSpace(key[0]);
    HexDigitsNotSpace(key[127]);
    StripUnchanged(key);
  }

  lemma HexDigitsNotSpace(c: char)
    requires c in HEX_DIGITS
    ensures !IsSpace(c)
  {
  }

  /** `~/.adventofcode.session`. */
  function DefaultSessionKeyPath(env: Env): (p: Path)
    ensures Parent(p) == env.home && FileName(p) == ".adventofcode.session"
  {
    Child(env.home, ".adventofcode.session")
  }

  /** `get_default_session_cookie`: `AOC_SESSION` when it is set, otherwise the
      stripped contents of the dotfile; the key is then checked. */
  function DefaultSessionCookie(env: Env): (r: Result<string>)
    ensures r.Ok? ==> ValidSessionKey(r.value)
    ensures env.aocSession.Some? ==>
      (r.Ok? <==> ValidSessionKey(env.aocSession.value)) && (r.Ok? ==> r.value == env.aocSession.value)
    ensures env.aocSession.None? && env.sessionFile.None? ==> r == Err(FileNotFound(DefaultSessionKeyPath(env)))
    ensures env.aocSession.None? && env.sessionFile.Some? ==>
      (r.Ok? <==> ValidSessionKey(Strip(env.sessionFile.value))) &&
      (r.Ok? ==> r.value == Strip(env.sessionFile.value))
  {
    var key :- match env.aocSession
      case Some(k) => Ok(k)
      case None =>
        match env.sessionFile
        case None => Err(FileNotFound(DefaultSessionKeyPath(env)))
        case Some(text) => Ok(Strip(text));
    if |key| != 128 then Err(AssertionFailed(""))
    else if !(forall i :: 0 <= i < |key| ==> key[i] in HEX_DIGITS) then Err(AssertionFailed(""))
    else Ok(key)
  }

  /** The token choice of `Puzzle.from_args`: an explicit `--session` is used
      as given (it is not checked); without one the default cookie is read. */
  function SessionToken(session: Option<string>, env: Env): (r: Result<string>)
    ensures session.Some? ==> r == Ok(session.value)
    ensures session.None? ==> r == DefaultSessionCookie(env)
    ensures session.None? && r.Ok? ==> ValidSessionKey(r.value)
  {
    if session.Some? then Ok(session.value) else DefaultSessionCookie(env)
  }

  /** `Puzzle.from_args`: the puzzle of the given year and day, for the chosen token. */
  function PuzzleFromArgs(year: int, day: int, session: Option<string>, env: Env): (r: Result<Puzzle>)
    ensures r.Ok? <==> SessionToken(session, env).Ok?
    ensures r.Ok? ==> r.value == Puzzle(year, day, SessionToken(session, env).value)
    ensures r.Err? ==> r.error == SessionToken(session, env).error
  {
    var token :- SessionToken(session, env);
    Ok(Puzzle(year, day, token))
  }

  // ---------------------------------------------------------------- arguments

  /** `validate_args`: the day, when the command has one, lies in 1-25 and is
      checked first; the year, when it has one, lies in 2015 to this year. */
  function ValidateArgs(day: Option<int>, year: Option<int>, nowYear: int): (r: Outcome)
    ensures r == Pass <==>
      (day.Some? ==> ValidDay(day.value)) && (year.Some? ==> START_YEAR <= year.value <= nowYear)
    ensures day.Some? && !ValidDay(day.value) ==> r == Fail(AssertionFailed("day must be in range 1-25"))
    ensures r.Fail? ==> r.error.AssertionFailed?
  {
    if day.Some? && !(1 <= day.value <= 25) then
      Fail(AssertionFailed("day must be in range 1-25"))
    else if year.Some? && !(START_YEAR <= year.value <= nowYear) then
      Fail(AssertionFailed("year must be in range " + IntToString(START_YEAR) + "-" + IntToString(nowYear)))
    else Pass
  }

  // ---------------------------------------------------------------- quoting

  /** The characters `shlex.quote` leaves unquoted: `[\w@%+=:,./-]` in ASCII. */
  predicate IsSafeChar(c: char)
  {
    || 'a' <= c <= 'z' || 'A' <= c <= 'Z' || '0' <= c <= '9'
    || c == '_' || c == '@' || c == '%' || c == '+' || c == '=' || c == ':'
    || c == ',' || c == '.' || c == '/' || c == '-'
  }

  predicate AllSafe(s: string)
  {
    forall i :: 0 <= i < |s| ==> IsSafeChar(s[i])
  }

  /** Every single quote written as `'"'"'` (close, a double-quoted quote, reopen). */
  function EscapeQuotes(s: string): string
  {
    if s == [] then []
    else (if s[0] == '\'' then "'\"'\"'" else [s[0]]) + EscapeQuotes(s[1..])
  }

  /** Without single quotes there is nothing to escape. */
  lemma {:induction false} EscapeNoQuotes(s: string)
    requires '\'' !in s
    ensures EscapeQuotes(s) == s
  {
    if s != [] {
      EscapeNoQuotes(s[1..]);
    }
  }

  /** `shlex.quote`: "''" for the empty string, the string itself when every
      character is safe, and otherwise the string in single quotes. */
  function Quote(s: string): (r: string)
    ensures s != [] && AllSafe(s) ==> r == s
    ensures r != []
  {
    if s == [] then "''"
    else if AllSafe(s) then s
    else "'" + EscapeQuotes(s) + "'"
  }

  /** `' '.join(words)`. */
  function JoinSpace(words: seq<string>): string
  {
    if words == [] then ""
    else if |words| == 1 then words[0]
    else words[0] + " " + JoinSpace(words[1..])
  }

  function QuoteAll(cmd: seq<string>): (r: seq<string>)
    ensures |r| == |cmd| && forall i :: 0 <= i < |cmd| ==> r[i] == Quote(cmd[i])
  {
    if cmd == [] then [] else [Quote(cmd[0])] + QuoteAll(cmd[1..])
  }

  /** `command2str`: the arguments, each quoted, joined by single spaces; a
      POSIX shell splits the result back into exactly the original arguments,
      whatever they contain. */
  function Command2Str(cmd: seq<string>): (r: string)
    ensures ShellSplit(r) == Some(cmd)
  {
    var r := JoinSpace(QuoteAll(cmd));
    assert ShellSplit(r) == Some(cmd) by {
      if cmd != [] {
        ReadJoined(cmd, []);
        assert [] + cmd == cmd;
      }
    }
    r
  }

  // ---------------------------------------------------------------- reading back

  /** Where a POSIX shell is within a word. */
  datatype Mode = Plain | InSingle | InDouble

  predicate IsBlank(c: char) { c == ' ' || c == '\t' || c == '\n' }

  /** A POSIX shell's word splitting and quote removal (no expansions):
      blanks separate words; single quotes take everything literally; inside
      double quotes a backslash escapes only $ ` " \ and newline; outside
      quotes a backslash takes the next character literally and removes a
      newline. `cur` is the word being read, `started` whether one is. */
  function ShellRead(t: string, mode: Mode, cur: string, started: bool, acc: seq<string>): Option<seq<string>>
    decreases |t|
  {
    if t == [] then
      if mode != Plain then None else Some(if started then acc + [cur] else acc)
    else
      var c, rest := t[0], t[1..];
      match mode
      case InSingle =>
        if c == '\'' then ShellRead(rest, Plain, cur, true, acc)
        else ShellRead(rest, InSingle, cur + [c], true, acc)
      case InDouble =>
        if c == '"' then ShellRead(rest, Plain, cur, true, acc)
        else if c == '\\' && rest != [] && rest[0] in "$`\"\\\n" then
          ShellRead(rest[1..], InDouble, cur + [rest[0]], true, acc)
        else ShellRead(rest, InDouble, cur + [c], true, acc)
      case Plain =>
        if IsBlank(c) then ShellRead(rest, Plain, [], false, if started then acc + [cur] else acc)
        else if c == '\'' then ShellRead(rest, InSingle, cur, true, acc)
        else if c == '"' then ShellRead(rest, InDouble, cur, true, acc)
        else if c == '\\' then
          if rest == [] then None
          else if rest[0] == '\n' then ShellRead(rest[1..], Plain, cur, started, acc)
          else ShellRead(rest[1..], Plain, cur + [rest[0]], true, acc)
        else ShellRead(rest, Plain, cur + [c], true, acc)
  }

  /** The words a POSIX shell reads from a command line. */
  function ShellSplit(t: string): Option<seq<string>>
  {
    ShellRead(t, Plain, [], false, [])
  }

  lemma {:induction false} ReadSafe(s: string, tail: string, cur: string, acc: seq<string>)
    requires AllSafe(s)
    ensures ShellRead(s + tail, Plain, cur, true, acc) == ShellRead(tail, Plain, cur + s, true, acc)
  {
    if s != [] {
      assert (s + tail)[1..] == s[1..] + tail;
      assert IsSafeChar(s[0]);
      ReadSafe(s[1..], tail, cur + [s[0]], acc);
      assert cur + [s[0]] + s[1..] == cur + s;
    } else {
      assert s + tail == tail && cur + s == cur;
    }
  }

  lemma {:induction false} ReadEscaped(s: string, tail: string, cur: string, acc: seq<string>)
    ensures ShellRead(EscapeQuotes(s) + tail, InSingle, cur, true, acc) == ShellRead(tail, InSingle, cur + s, true, acc)
  {
    if s == [] {
      assert EscapeQuotes(s) + tail == tail && cur + s == cur;
    } else {
      var rest := EscapeQuotes(s[1..]) + tail;
      ReadEscaped(s[1..], tail, cur + [s[0]], acc);
      assert cur + [s[0]] + s[1..] == cur + s;
      if s[0] == '\'' {
        assert EscapeQuotes(s) + tail == "'\"'\"'" + rest;
        ReadEscapedQuote(rest, cur, acc);
      } else {
        assert EscapeQuotes(s) + tail == [s[0]] + rest;
        ReadLiteral(s[0], rest, cur, acc);
      }
    }
  }

  /** Inside single quotes, a character other than a quote is taken literally. */
  lemma ReadLiteral(c: char, rest: string, cur: string, acc: seq<string>)
    requires c != '\''
    ensures ShellRead([c] + rest, InSingle, cur, true, acc) == ShellRead(rest, InSingle, cur + [c], true, acc)
  {
    assert ([c] + rest)[0] == c && ([c] + rest)[1..] == rest;
  }

  /** `'"'"'` inside single quotes reads as one single quote. */
  lemma ReadEscapedQuote(rest: string, cur: string, acc: seq<string>)
    ensures ShellRead("'\"'\"'" + rest, InSingle, cur, true, acc) == ShellRead(rest, InSingle, cur + ['\''], true, acc)
  {
    var t := "'\"'\"'" + rest;
    var t1, t2, t3, t4 := "\"'\"'" + rest, "'\"'" + rest, "\"'" + rest, "'" + rest;
    assert t[0] == '\'' && t[1..] == t1;
    assert t1[0] == '"' && t1[1..] == t2;
    assert t2[0] == '\'' && t2[1..] == t3;
    assert t3[0] == '"' && t3[1..] == t4;
    assert t4[0] == '\'' && t4[1..] == rest;
    calc {
      ShellRead(t, InSingle, cur, true, acc);
      ShellRead(t1, Plain, cur, true, acc);
      ShellRead(t2, InDouble, cur, true, acc);
      ShellRead(t3, InDouble, cur + ['\''], true, acc);
      ShellRead(t4, Plain, cur + ['\''], true, acc);
      ShellRead(rest, InSingle, cur + ['\''], true, acc);
    }
  }

  lemma ReadQuotedEmpty(tail: string, acc: seq<string>)
    ensures ShellRead("''" + tail, Plain, [], false, acc) == ShellRead(tail, Plain, [], true, acc)
  {
    assert ("''" + tail)[1..] == "'" + tail;
    assert ("'" + tail)[1..] == tail;
  }

  lemma ReadQuotedSafe(s: string, tail: string, acc: seq<string>)
    requires s != [] && AllSafe(s)
    ensures ShellRead(s + tail, Plain, [], false, acc) == ShellRead(tail, Plain, s, true, acc)
  {
    assert IsSafeChar(s[0]) && !IsBlank(s[0]);
    assert s[0] != '\'' && s[0] != '"' && s[0] != '\\';
    assert (s + tail)[0] == s[0] && (s + tail)[1..] == s[1..] + tail;
    assert [] + [s[0]] == [s[0]];
    assert ShellRead(s + tail, Plain, [], false, acc) == ShellRead(s[1..] + tail, Plain, [s[0]], true, acc);
    ReadSafe(s[1..], tail, [s[0]], acc);
    assert [s[0]] + s[1..] == s;
  }

  lemma ReadQuotedEscaped(s: string, tail: string, acc: seq<string>)
    ensures ShellRead("'" + EscapeQuotes(s) + "'" + tail, Plain, [], false, acc) == ShellRead(tail, Plain, s, true, acc)
  {
    var t := "'" + EscapeQuotes(s) + "'" + tail;
    assert t[1..] == EscapeQuotes(s) + ("'" + tail);
    ReadEscaped(s, "'" + tail, [], acc);
    assert [] + s == s;
    assert ("'" + tail)[1..] == tail;
  }

  /** Reading back a quoted word, followed by anything, yields the word itself. */
  lemma ReadQuoted(s: string, tail: string, acc: seq<string>)
    ensures ShellRead(Quote(s) + tail, Plain, [], false, acc) == ShellRead(tail, Plain, s, true, acc)
  {
    if s == [] {
      ReadQuotedEmpty(tail, acc);
    } else if AllSafe(s) {
      ReadQuotedSafe(s, tail, acc);
    } else {
      ReadQuotedEscaped(s, tail, acc);
    }
  }

  lemma {:induction false} ReadJoined(cmd: seq<string>, acc: seq<string>)
    requires cmd != []
    ensures ShellRead(JoinSpace(QuoteAll(cmd)), Plain, [], false, acc) == Some(acc + cmd)
  {
    if |cmd| == 1 {
      JoinQuotedSingle(cmd);
      ReadLastWord(cmd[0], acc);
      assert cmd == [cmd[0]];
    } else {
      var rest := JoinSpace(QuoteAll(cmd[1..]));
      JoinQuotedCons(cmd);
      ReadWordThenRest(cmd[0], rest, acc);
      ReadJoined(cmd[1..], acc + [cmd[0]]);
      AppendFirst(acc, cmd);
    }
  }

  lemma AppendFirst<T>(acc: seq<T>, xs: seq<T>)
    requires xs != []
    ensures acc + [xs[0]] + xs[1..] == acc + xs
  {
    assert [xs[0]] + xs[1..] == xs;
  }

  /** A quoted word at the end of the line is read as the last word. */
  lemma ReadLastWord(word: string, acc: seq<string>)
    ensures ShellRead(Quote(word) + "", Plain, [], false, acc) == Some(acc + [word])
  {
    ReadQuoted(word, "", acc);
  }

  /** A quoted word followed by a blank is read as one word, and reading goes on after the blank. */
  lemma ReadWordThenRest(word: string, rest: string, acc: seq<string>)
    ensures ShellRead(Quote(word) + " " + rest, Plain, [], false, acc) == ShellRead(rest, Plain, [], false, acc + [word])
  {
    var w := Quote(word);
    assert w + " " + rest == w + (" " + rest);
    ReadQuoted(word, " " + rest, acc);
    ReadBlank(rest, word, acc);
  }

  lemma JoinQuotedSingle(cmd: seq<string>)
    requires |cmd| == 1
    ensures JoinSpace(QuoteAll(cmd)) == Quote(cmd[0]) + ""
  {
    assert QuoteAll(cmd) == [Quote(cmd[0])];
  }

  lemma JoinQuotedCons(cmd: seq<string>)
    requires |cmd| >= 2
    ensures JoinSpace(QuoteAll(cmd)) == Quote(cmd[0]) + " " + JoinSpace(QuoteAll(cmd[1..]))
  {
    var q, q1 := QuoteAll(cmd), QuoteAll(cmd[1..]);
    assert q == [Quote(cmd[0])] + q1;
    assert q[1..] == q1;
  }

  /** A blank after a word ends it. */
  lemma ReadBlank(rest: string, word: string, acc: seq<string>)
    ensures ShellRead(" " + rest, Plain, word, true, acc) == ShellRead(rest, Plain, [], false, acc + [word])
  {
    assert (" " + rest)[0] == ' ' && (" " + rest)[1..] == rest;
  }

  lemma QuoteSafeExamples()
    ensures Quote("prog") == "prog" && Quote("arg1") == "arg1" && Quote("--arg2") == "--arg2"
  {
    var p, a, b := "prog", "arg1", "--arg2";
    assert p[0] == 'p' && p[1] == 'r' && p[2] == 'o' && p[3] == 'g';
    assert AllSafe(p);
    assert a[0] == 'a' && a[1] == 'r' && a[2] == 'g' && a[3] == '1';
    assert AllSafe(a);
    assert b[0] == '-' && b[1] == '-' && b[2] == 'a' && b[3] == 'r' && b[4] == 'g' && b[5] == '2';
    assert AllSafe(b);
  }

  lemma QuoteSpaceExample(t: string)
    requires t == "two parts"
    ensures Quote(t) == "'two parts'"
  {
    assert t[3] == ' ';
    assert forall i | 0 <= i < |t| :: t[i] != '\'';
    QuoteUnsafe(t, 3);
    assert "'" + t + "'" == "'two parts'";
  }

  /** A word with an unsafe character and no single quote is wrapped in single quotes. */
  lemma QuoteUnsafe(s: string, i: nat)
    requires i < |s| && !IsSafeChar(s[i]) && '\'' !in s
    ensures Quote(s) == "'" + s + "'"
  {
    EscapeNoQuotes(s);
  }

  /** The first case `test_command2str` checks: safe words are joined as they are. */
  lemma Command2StrSafeExample(cmd: seq<string>)
    requires cmd == ["prog", "arg1", "--arg2"]
    ensures Command2Str(cmd) == "prog arg1 --arg2"
  {
    Command2StrTriple(cmd[0], cmd[1], cmd[2]);
    assert cmd == [cmd[0], cmd[1], cmd[2]];
    QuoteSafeExamples();
    SafeJoinedExample(Quote(cmd[0]), Quote(cmd[1]), Quote(cmd[2]));
  }

  lemma SafeJoinedExample(x: string, y: string, z: string)
    requires x == "prog" && y == "arg1" && z == "--arg2"
    ensures x + " " + y + " " + z == "prog arg1 --arg2"
  {
  }

  /** The second case `test_command2str` checks: a word with a space is single-quoted. */
  lemma Command2StrSpaceExample(cmd: seq<string>)
    requires cmd == ["prog", "two parts"]
    ensures Command2Str(cmd) == "prog 'two parts'"
  {
    Command2StrPair(cmd[0], cmd[1]);
    assert cmd == [cmd[0], cmd[1]];
    QuoteSafeExamples();
    QuoteSpaceExample(cmd[1]);
    SpaceJoinedExample(Quote(cmd[0]), Quote(cmd[1]));
  }

  lemma SpaceJoinedExample(x: string, y: string)
    requires x == "prog" && y == "'two parts'"
    ensures x + " " + y == "prog 'two parts'"
  {
  }

  lemma Command2StrTriple(a: string, b: string, c: string)
    ensures Command2Str([a, b, c]) == Quote(a) + " " + Quote(b) + " " + Quote(c)
  {
    var q := QuoteAll([a, b, c]);
    assert q == [Quote(a), Quote(b), Quote(c)];
    assert q[1..] == [Quote(b), Quote(c)];
    Command2StrPair(b, c);
    assert JoinSpace(q) == q[0] + " " + JoinSpace(q[1..]);
  }

  lemma Command2StrPair(a: string, b: string)
    ensures Command2Str([a, b]) == Quote(a) + " " + Quote(b)
  {
    var q := QuoteAll([a, b]);
    assert q == [Quote(a), Quote(b)];
    assert q[1..] == [Quote(b)];
    assert JoinSpace(q) == q[0] + " " + JoinSpace(q[1..]);
  }
}
